=== FILE: README.md ===
# Ground collision of SonicGDX, in Dafny

A model of the ground-collision engine of the SonicGDX / SonicSwirl 2D platformer, with proofs.
It has three layers.

- **Terrain.** A `Tile` holds 16 column heights, 16 row widths, an angle, a solidity code and two
  flip flags. A `Chunk` is a 6×6 grid of tiles with an optional texture and an empty flag. The
  level (`TileMap`) is a ragged two-dimensional array of chunks. Its lookups `getChunk` and
  `getTile` are total: every negative, out-of-range or empty-chunk address resolves to the empty
  sentinel. The `testLevel` fixture is reproduced, with textures kept only as asset paths.
- **Sensor probes.** `floorProcess` and `wallProcess` split a sensor position into chunk, tile and
  pixel indices. They read one column height or row width, and may take one step to the
  neighbouring tile, across chunk boundaries. The result is the tile found and a signed distance
  to its surface.
- **Player.** The per-frame `update` of `sonicgdx/Player.java`:
  - ground movement (slope term, accelerate, decelerate, friction, jump);
  - air movement (jump cap, air acceleration, air drag, gravity);
  - the sensor-activation table and the arbitration between the two floor sensors;
  - the grounded and airborne collision gates, the landing bands and the wall push;
  - the debug toggle and debug movement;
  - from `Entity.java`, the boundary clamp with respawn, the hitbox corners and `snapToNearest`.

Every operation is a pure function over immutable datatypes. The player is a record of reals
stepped by `Players.Update`. Input polling becomes an `Input` record. libGDX's `sinDeg` and `cosDeg`
are passed in as a `Trig` record of function values. The ground movement and the jump take their
sine and cosine already evaluated at the ground angle, as a `Slope` pair; `Update` evaluates it. `MathUtils.round` is modelled as `floor(x + 1/2)`, which is libGDX's definition,
and carries the nearest-integer contract `x - 1/2 < round(x) <= x + 1/2`.

Each probe has a reference definition written in global tile columns and rows rather than in
chunk and tile indices:
- `Sensors.FloorRow` for the floor probe;
- `Sensors.WallReference` for the wall probe as written; it keeps the chunk-edge quirk of the
  extension, so it still reduces the column modulo the chunk width there;
- `Sensors.WallSymmetric` for the wall probe that mirrors the floor probe.

The contracts of the as-written probes, `Sensors.FloorSurface` and `Sensors.WallSurface`, state
that the chunk-and-tile code computes the reference for every non-negative position, wrap-around
included.

Modules, one per file: `Wrappers` (Option, Result), `Numerics` (Java division, floorMod, rounding,
real arithmetic helpers), `Dimensions`, `Tiles`, `Chunks`, `TileMaps`, `Sensors`, `Entities`,
`Players`.

## Model

| member | source | states |
|---|---|---|
| Dimensions.TilesPerChunkIsSix | core/src/main/java/com/sonicgdx/TileMap.java:33-35 | TILES_PER_CHUNK = CHUNK_LENGTH / TILE_LENGTH = 96 / 16 = 6 |
| Tiles.NewTile | core/src/main/java/com/sonicgdx/Tile.java:39-57 | construction succeeds iff both arrays have 16 entries; a bad height array is reported first (with its length), then a bad width array; a built tile is not empty and keeps angle, solidity and both flip flags |
| Tiles.EmptyTile | core/src/main/java/com/sonicgdx/Tile.java:58-68 | the no-argument tile is empty, has all-zero arrays, angle 0, solidity 0 and no flips |
| Tiles.GetHeight | core/src/main/java/com/sonicgdx/Tile.java:70-76 | 0 for an empty tile or any column outside 0..15, otherwise the stored height; never indexes out of bounds |
| Tiles.GetWidth | core/src/main/java/com/sonicgdx/Tile.java:77-82 | the same total read over the width array |
| Tiles.NewTileReadsBack | core/src/main/java/com/sonicgdx/Tile.java:39-82 | reading a constructed tile at 0..15 returns exactly the arrays it was built from |
| Tiles.EmptyTileReadsZero | core/src/main/java/com/sonicgdx/Tile.java:58-82 | every height and width of the empty tile is 0, for every integer index |
| Chunks.NewTexturedChunk | core/src/main/java/com/sonicgdx/Chunk.java:31-36 | succeeds iff the outer grid has 6 columns, otherwise fails with the found length; a built chunk is not empty, holds the texture and stores the grid unchanged |
| Chunks.NewChunk | core/src/main/java/com/sonicgdx/Chunk.java:38-43 | same length rule; a built chunk is flagged empty, has no texture and stores the grid unchanged |
| Chunks.ConstructorsAgreeOnGrid | core/src/main/java/com/sonicgdx/Chunk.java:31-59 | only the outer length is validated, ragged inner columns are accepted by both constructors, and the two differ only in flag and texture |
| TileMaps.GetEmptyTile | core/src/main/java/com/sonicgdx/TileMap.java:173-176 | the sentinel is empty and reads 0 everywhere |
| TileMaps.EmptyTileArray | core/src/main/java/com/sonicgdx/TileMap.java:54 | a 6×6 grid every cell of which is the empty tile |
| TileMaps.EmptyChunk | core/src/main/java/com/sonicgdx/TileMap.java:54-81 | the empty chunk is the texture-less constructor applied to the 6×6 grid of empty tiles, hence flagged empty |
| TileMaps.GetChunk | core/src/main/java/com/sonicgdx/TileMap.java:161-167 | the stored chunk for an address inside the ragged array, the empty chunk for every other address; a non-empty result implies the address is in range |
| TileMaps.IsChunkEmpty | core/src/main/java/com/sonicgdx/TileMap.java:169-171 | equals the flag of the chunk getChunk resolves to, so it is true for every out-of-range address |
| TileMaps.GetTile | core/src/main/java/com/sonicgdx/TileMap.java:134-152 | total over all integers: the stored tile exactly when the chunk is in range and not empty and the cell exists in its ragged grid, otherwise the empty sentinel (in particular for negative tile indices and empty chunks) |
| TileMaps.NonEmptyTileIsStored | core/src/main/java/com/sonicgdx/TileMap.java:134-152 | a non-empty tile can only come from a stored cell |
| TileMaps.FixtureTilesDistinct | core/src/main/java/com/sonicgdx/TileMap.java:45-50 | the fixture's tile instances are pairwise different values, so comparing tiles by value agrees with the source's comparison by reference on this level |
| TileMaps.TestLevelLookups | core/src/main/java/com/sonicgdx/TileMap.java:101-132 | lookups on the testLevel fixture: stored tiles, the gap above a one-chunk column, an empty chunk, the rows missing from the ragged half-height chunk, a negative chunk address |
| Sensors.CalcSurroundingChunkOnAxis | core/src/main/java/com/sonicgdx/Sensor.java:43-45 | the chunk index brackets the coordinate from below for non-negative input and from above for negative input (Java truncating division) |
| Sensors.CalcSurroundingTileOnAxis | core/src/main/java/com/sonicgdx/Sensor.java:47-49 | the tile index inside the chunk is always in 0..5 |
| Sensors.AxisDecomposition | core/src/main/java/com/sonicgdx/Sensor.java:43-82 | for a non-negative coordinate, chunk*96 + tile*16 + floorMod(p,16) = p, with the pixel in 0..15, and chunk and tile are the global tile index divided by and reduced modulo 6 |
| Sensors.NegativeAxisDoesNotDecompose | core/src/main/java/com/sonicgdx/Sensor.java:43-49 | at -1 the truncating chunk (0) and the floor-modulo tile (5) no longer add back up, which is why the probes guard against negative positions |
| Sensors.NextTileWraps | core/src/main/java/com/sonicgdx/Sensor.java:91-104 | one tile on is the next tile of the same chunk, or tile 0 of the next chunk from the last tile |
| Sensors.PreviousTileWraps | core/src/main/java/com/sonicgdx/Sensor.java:116-124 | one tile back is the previous tile of the same chunk, or tile 5 of the previous chunk from tile 0 |
| Sensors.FloorRow | core/src/main/java/com/sonicgdx/Sensor.java:87-130 | the reference row lies within one row of the sensor's row |
| Sensors.FloorCells | core/src/main/java/com/sonicgdx/Sensor.java:72-126 | for a non-negative position, the cell floorProcess reads by chunk and tile, and the cells one tile up and down (across chunk boundaries), are the tiles at the global column and the rows row, row+1 and row-1 |
| Sensors.FloorSurface | core/src/main/java/com/sonicgdx/Sensor.java:57-134 | for every non-negative position the chunk-and-tile code of floorProcess, with its regression (full column: adopt the tile above if it has pixels, adding its height) and extension (empty column: the tile below, 16 or 16 - h lower), reports the tile at the reference row and the top of that tile's column |
| Sensors.FloorProcess | core/src/main/java/com/sonicgdx/Sensor.java:57-134 | empty tile and distance -50 for a negative position; otherwise the tile in the sensor's column at the reference row, and distance = that column top minus the sensor's y |
| Sensors.RightEdgeWrapCell | core/src/main/java/com/sonicgdx/Sensor.java:201-205 | moving right from a chunk's last column as the source does lands in the next chunk, still in the last column, in row 0 |
| Sensors.WallCells | core/src/main/java/com/sonicgdx/Sensor.java:157-208 | for a non-negative position, the cell wallProcess reads by chunk and tile is the global one, the regression cell is the global column to the left, and the extension cell is the global column to the right, or at a chunk's last column six columns on in the chunk's bottom row |
| Sensors.WallSurface | core/src/main/java/com/sonicgdx/Sensor.java:139-217 | for every non-negative position the chunk-and-tile code of wallProcess computes the global reference: initial surface (tileX+1)*16 - width from the chunk's left edge, regression one column left subtracting the neighbour's value, extension one column right adding 16 or 16 - value, with the source's own reads and wrap |
| Sensors.WallAgreesWithSymmetricWithoutProbes | core/src/main/java/com/sonicgdx/Sensor.java:170-213 | when the row width is neither 0 nor 16, no neighbour is read and the wall probe agrees with its floor-symmetric counterpart |
| Sensors.WallProcess | core/src/main/java/com/sonicgdx/Sensor.java:139-217 | empty tile and distance +50 for a negative position; otherwise the reference wall hit with distance = its surface minus the sensor's x |
| Sensors.SingleFullTileProbe | core/src/main/java/com/sonicgdx/Sensor.java:87-114 | one full tile with nothing above: on its top surface the distance is 0, one pixel above it is -1, one pixel inside it is +1, and the regression is not taken |
| Sensors.WallRegressionReadsHeights | core/src/main/java/com/sonicgdx/Sensor.java:175-196 | the wall regression reads the neighbour's height array: in the half-height tile it reports the wall 8 pixels from where widths would put it |
| Sensors.WallRightEdgeWrapResetsRow | core/src/main/java/com/sonicgdx/Sensor.java:198-212 | at a chunk's last column the wall extension keeps tileX and resets tileY, so it reports a tile from another row and column than the next one |
| Entities.EnforceBoundaries | core/src/main/java/com/sonicgdx/sonicgdx/Entity.java:51-59 | afterwards x >= 0; at or below y = -100 the position becomes (50, 200); otherwise y is kept and x is clamped at 0 |
| Entities.EnforceBoundariesFixedPoints | core/src/main/java/com/sonicgdx/sonicgdx/Entity.java:51-59 | exactly the positions with x >= 0 and y > -100 are left alone |
| Entities.EnforceBoundariesIdempotent | core/src/main/java/com/sonicgdx/sonicgdx/Entity.java:51-59 | applying the boundaries twice equals applying them once |
| Entities.CalculateCornerPositions | core/src/main/java/com/sonicgdx/sonicgdx/Entity.java:61-67 | the hitbox is 2·widthRadius wide and 2·heightRadius high, centred on the position |
| Entities.RoundedMultipleWithinHalfStep | core/src/main/java/com/sonicgdx/sonicgdx/Entity.java:75-77 | round(angle/s)·s lies within half a step of the angle |
| Entities.SnapToNearest | core/src/main/java/com/sonicgdx/sonicgdx/Entity.java:75-77 | the result is a whole multiple of snapTo and within half a step of the angle |
| Entities.SnapIsNearest | core/src/main/java/com/sonicgdx/sonicgdx/Entity.java:69-77 | no whole multiple of the step is closer to the angle |
| Entities.SnapFixesMultiples | core/src/main/java/com/sonicgdx/sonicgdx/Entity.java:69-77 | snapToNearest(k·s, s) = k·s |
| Entities.SnapToRightAngles | core/src/main/java/com/sonicgdx/sonicgdx/Entity.java:75-77 | snapping to 90: 44 → 0, 45 → 90 (half-way rounds up), 46 → 90, 360 → 360 |
| Players.CalculateSensorPositions | core/src/main/java/com/sonicgdx/sonicgdx/Player.java:387-393 | A and B on the bottom corners, E and F at mid height on the left and right edges; activity, probes and everything else unchanged |
| Players.NewPlayer | core/src/main/java/com/sonicgdx/sonicgdx/Player.java:42-53 | a new player is at (50, 200), at rest, airborne, not jumping, not in debug mode, stores the given radii, and has inactive sensors on the hitbox around the spawn point (A, B on the bottom corners, E, F at mid height), where recalculating the positions leaves them; every sensor's stored probe starts at distance 0 on the empty tile |
| Players.SlopeTerm | core/src/main/java/com/sonicgdx/sonicgdx/Player.java:179 | a player at rest stays at rest and flat ground has no effect; otherwise, with dt > 0, the ground speed drops exactly when the sine is positive (uphill) and rises exactly when it is negative |
| Players.SlopeTermMirror | core/src/main/java/com/sonicgdx/sonicgdx/Player.java:179 | mirrored motion on a mirrored slope gives the mirrored result |
| Players.GroundAcceleration | core/src/main/java/com/sonicgdx/sonicgdx/Player.java:184-196 | holding right: +DECELERATION·dt below 0, +ACCELERATION·dt from 0 up to MAX_SPEED, unchanged from MAX_SPEED; left symmetric; neither or both: the magnitude drops by ACCELERATION·dt but not below 0 and the sign never flips |
| Players.GroundAccelerationMirror | core/src/main/java/com/sonicgdx/sonicgdx/Player.java:184-196 | left and right are mirror images: negating the speed and swapping the buttons negates the result |
| Players.Jump | core/src/main/java/com/sonicgdx/sonicgdx/Player.java:299-305 | the player leaves the ground with isJumping set; the velocity change is perpendicular to the slope direction (cos, sin) and points away from the ground, its component along the normal (−sin, cos) being JUMP_FORCE·(sin² + cos²); on flat ground it is exactly +JUMP_FORCE upwards; nothing else changes |
| Players.JumpImpulseMagnitude | core/src/main/java/com/sonicgdx/sonicgdx/Player.java:299-305 | when the slope's sine and cosine satisfy sin² + cos² = 1, the impulse has magnitude JUMP_FORCE |
| Players.GroundMove | core/src/main/java/com/sonicgdx/sonicgdx/Player.java:167-205 | the ground speed is the directional rule applied after the slope term; the velocity is `SlopeVelocity`: the ground speed times (cos, sin), plus the jump impulse JUMP_FORCE·(−sin, cos) when the jump was just pressed; a jump leaves the ground and sets isJumping, otherwise both flags are kept; position, angle, debug mode, radii and sensors are untouched |
| Players.AlongSlope | core/src/main/java/com/sonicgdx/sonicgdx/Player.java:199-201 | for any ground speed: the velocity is `SlopeVelocity` of that speed (with the impulse iff jumping), the flags follow the jump, and every other field is kept |
| Players.AccelerateToMaxSpeed | core/src/main/java/com/sonicgdx/sonicgdx/Player.java:184-199 | from rest on flat ground (sin 0, cos 1), holding right for n frames with n·ACCELERATION·dt = MAX_SPEED reaches MAX_SPEED exactly and one more frame stays there |
| Players.AccelerateToMaxSpeedAtSixtyFps | core/src/main/java/com/sonicgdx/sonicgdx/Player.java:188 | at 60 frames per second the climb from 0 to MAX_SPEED takes exactly 128 frames |
| Players.JumpCap | core/src/main/java/com/sonicgdx/sonicgdx/Player.java:318-319 | while jumping with the button released the vertical speed becomes min(vy, 4); holding the button or not jumping keeps it |
| Players.AirAcceleration | core/src/main/java/com/sonicgdx/sonicgdx/Player.java:321-331 | one held direction adds AIR_ACCELERATION·dt that way exactly when the speed that way is below MAX_SPEED; neither or both held: no friction; a speed within one frame's step of the cap stays within it |
| Players.AirAccelerationMirror | core/src/main/java/com/sonicgdx/sonicgdx/Player.java:321-331 | negating the speed and swapping the buttons negates the result |
| Players.AirDrag | core/src/main/java/com/sonicgdx/sonicgdx/Player.java:332-336 | the drag is positive exactly for vx >= 1/8 and negative exactly for vx < 0: the floor makes any leftward speed, however small, dragged |
| Players.AirMove | core/src/main/java/com/sonicgdx/sonicgdx/Player.java:307-344 | the jump cap, then the air acceleration, then the air drag only while 0 < vy < 4; the position advances by the new velocity; gravity is added after the position update; nothing else changes |
| Players.AirSensorActivation | core/src/main/java/com/sonicgdx/sonicgdx/Player.java:350-380 | mostly horizontal: A and B on and exactly one wall sensor, F iff vx > 0; mostly vertical: E and F on and A, B on iff vy <= 0 |
| Players.AirSensorCoverage | core/src/main/java/com/sonicgdx/sonicgdx/Player.java:350-380 | for every velocity A and B agree, they are off exactly when moving mostly upward, and at least one wall sensor is on |
| Players.SetAirSensors | core/src/main/java/com/sonicgdx/sonicgdx/Player.java:350-380 | applies the activation table and changes nothing else |
| Players.FloorSensors | core/src/main/java/com/sonicgdx/sonicgdx/Player.java:217-234 | the winner is the sensor with the greater distance; on a tie A wins if both found the same tile; there is no winner exactly when the distances tie and the tiles differ |
| Players.FloorSensorsSymmetric | core/src/main/java/com/sonicgdx/sonicgdx/Player.java:228-232 | swapping the two floor sensors does not change the outcome |
| Players.GroundedAccepts | core/src/main/java/com/sonicgdx/sonicgdx/Player.java:117 | accepts exactly a winner with max(-\|vx\|-4, -14) < d < 14; so always within ±14, and always accepted for -4 < d < 14 |
| Players.GroundToleranceGrowsWithSpeed | core/src/main/java/com/sonicgdx/sonicgdx/Player.java:117 | a distance accepted at some speed is accepted at every greater speed |
| Players.AirborneAccepts | core/src/main/java/com/sonicgdx/sonicgdx/Player.java:121-136 | mostly upward never collides; mostly horizontal needs d >= 0 and vy <= 0; mostly downward needs d >= 0 and (dA <= -(vy+8) or dB >= -(vy+8)) |
| Players.AirborneAcceptsMirror | core/src/main/java/com/sonicgdx/sonicgdx/Player.java:121-136 | the gate depends on vx only through its magnitude: mostly-right and mostly-left travel are treated alike |
| Players.AirborneLandingPassesGroundedGate | core/src/main/java/com/sonicgdx/sonicgdx/Player.java:117-136 | a landing the airborne gate accepts with d < 14 is also accepted by the grounded gate at every speed |
| Players.LandingVelocity | core/src/main/java/com/sonicgdx/sonicgdx/Player.java:263-279 | [0,23]: vx; [24,45] and [46,90]: vx when it dominates, else vy projected on the slope (halved on [24,45]); any other angle keeps the ground speed |
| Players.LandingOutsideBandsKeepsSpeed | core/src/main/java/com/sonicgdx/sonicgdx/Player.java:263-279 | the reverse-slope angle -45 and the gaps (23,24) and (45,46) fall in no band and keep the previous ground speed |
| Players.LandingSpeedBounded | core/src/main/java/com/sonicgdx/sonicgdx/Player.java:263-279 | inside the bands, with \|sin\| <= 1, the landing ground speed is at most max(\|vx\|, \|vy\|) in magnitude |
| Players.GroundCollision | core/src/main/java/com/sonicgdx/sonicgdx/Player.java:236-283 | only y moves, by exactly the distance; the angle becomes snapToNearest(angle, 90) if the player's angle was 360, else the tile's; the player is grounded; on a landing the jump ends and the ground speed follows the landing bands; a grounded player keeps its ground speed |
| Players.GroundCollisionSettles | core/src/main/java/com/sonicgdx/sonicgdx/Player.java:236-283 | colliding again with the same tile at distance 0 leaves the player unchanged |
| Players.FlaggedAngleQuirk | core/src/main/java/com/sonicgdx/sonicgdx/Player.java:251-256 | the flag test reads the player's angle: 360 stays 360, and a tile flagged 360 is adopted as is |
| Players.FlatLandingKeepsHorizontalSpeed | core/src/main/java/com/sonicgdx/sonicgdx/Player.java:263-264 | landing on a flat tile sets the ground speed to the horizontal velocity |
| Players.WallCollision | core/src/main/java/com/sonicgdx/sonicgdx/Player.java:289-293 | x moves by exactly the sensor distance and nothing else changes |
| Players.ToggleDebug | core/src/main/java/com/sonicgdx/sonicgdx/Player.java:66-77 | debug mode flips; ground speed, velocity and angle are zeroed; every other field (position, flags, radii, sensor positions, activity and probes) is kept |
| Players.ToggleDebugTwice | core/src/main/java/com/sonicgdx/sonicgdx/Player.java:66-77 | toggling twice restores the mode but the motion stays zeroed |
| Players.DebugMove | core/src/main/java/com/sonicgdx/sonicgdx/Player.java:395-404 | each held direction moves 90·dt (opposite keys cancel), E turns by 45; velocity and flags untouched |
| Players.AirStep | core/src/main/java/com/sonicgdx/sonicgdx/Player.java:83-97 | after air movement the sensors follow the activation table for the new velocity; F is probed at its stored position when active and keeps its last probe when not; x moves by F's distance exactly when that distance is negative (so only ever left); y, the velocity, the other sensors and every other field are those after air movement |
| Players.GroundStep | core/src/main/java/com/sonicgdx/sonicgdx/Player.java:99-109 | the player after ground movement, with both floor sensors activated (probes and positions kept) and the position advanced by the new velocity times delta; nothing else differs from ground movement |
| Players.FloorStep | core/src/main/java/com/sonicgdx/sonicgdx/Player.java:111-138 | runs only when A and B are both active; probes both; when the gate for the player's state accepts the winner the result is groundCollision with that winner (y moves by its distance, the angle, landing speed and end of the jump follow); otherwise only the two probes change and the player is airborne |
| Players.Update | core/src/main/java/com/sonicgdx/sonicgdx/Player.java:63-145 | after a frame x >= 0 and y > -100, the sensors sit on the final hitbox, debug mode flips iff toggled, entering debug zeroes the motion, and while in debug the velocities and grounded flag are untouched; outside debug mode the velocity is that of air movement (airborne) or ground movement (grounded), the ground speed, angle and both flags are those after the floor step that follows, and the position is that step's position passed through the level boundaries; the hitbox radii never change, and each sensor's activity and last probe are those after the floor step (outside debug mode) or those before the frame (in debug mode) |

## Source quirks

These behaviours are kept as written, and lemmas exhibit them.

- The wall probe's regression and extension read the neighbouring tile's **height** array, while
  the containing tile is read through its width array. `Sensors.WallRegressionReadsHeights` gives
  a position where the result differs from a width-only probe (`Sensors.WallSymmetric`).
- At a chunk's last column the wall extension moves to the next chunk but resets `tileY` to 0 and
  leaves `tileX` at 5. `Sensors.WallRightEdgeWrapResetsRow` gives a position where this reports a
  full tile in another row, instead of the empty tile next to the sensor.
- `groundCollision` tests the player's own angle against the flag value 360, not the tile's angle.
  Snapping 360 gives 360, so the snap branch never changes anything. A tile flagged 360 is adopted
  as the new angle like any other (`Players.FlaggedAngleQuirk`). The snap itself rounds 44° to 0°
  and 45° to 90° (`Entities.SnapToRightAngles`).
- The airborne wall push tests sensor F's distance even when F is inactive that frame, so it can
  act on a distance left over from an earlier frame (`Players.AirStep`).
- Sensors probe at the positions stored at the end of the previous frame, not at the position the
  current frame's movement produced (`Players.AirStep`, `Players.FloorStep`).
- The landing bands are closed integer ranges over a float angle. Angles in the gaps (23,24) and
  (45,46), and negative angles such as the fixture's -45° reverse slope, keep the ground speed the
  player had before leaving the ground (`Players.LandingOutsideBandsKeepsSpeed`).
- One pixel above the top of a single full tile the floor probe reads -1, and one pixel sunk into
  it reads +1; on the surface it reads 0 (`Sensors.SingleFullTileProbe`).
- The wall probe is not the mirror image of the floor probe. It is modelled as written
  (`Sensors.WallProcess`); the mirror-image probe is `Sensors.WallSymmetric`, and the two agree
  whenever no neighbour is read (`Sensors.WallAgreesWithSymmetricWithoutProbes`).

## Left out

- Rendering, sprites, the texture atlas, `flipX`/`flipY`, `setRegion`/`setBounds`/`setRotation`: they have no effect on collision.
- Textures are kept only as their asset path. Loading and `getTexture`'s `Optional` are represented by `Option<Texture>`.
- Getters (`getAngle`, `getSolidity`, `isEmpty`, `getTileArray`, `getTexture`, the flip getters) are datatype fields, not separate functions.
- Input polling: the keys read through `Gdx.input` become the fields of `Players.Input`.
- Floating point: positions, velocities and angles are exact reals, with no IEEE `float` rounding. `MathUtils.round` and `MathUtils.floor` are exact `floor(x + 1/2)` and `floor(x)`, with no limit on the range of their argument.
- `MathUtils.sinDeg`/`cosDeg`: supplied by the caller as `Players.Trig` (or already evaluated, as `Players.Slope`); no property of the lookup tables is modelled.
- Players.Jump: the impulse magnitude is proved only under the assumption sin² + cos² = 1 (`Players.JumpImpulseMagnitude`), and the component along the ground normal is JUMP_FORCE·(sin² + cos²) rather than JUMP_FORCE, since the trigonometry is a parameter.
- Entities.SnapToNearest: requires a non-zero step; the source's float division by zero is not modelled.
- Players.Update: debug movement is modelled, but the sprite update at the end of `update` is not.
- Tile identity: the source compares tiles by reference in `floorSensors`, the model by value. On the fixture the two agree (`TileMaps.FixtureTilesDistinct`).
- The sensor's tile starts as null in the source and as the empty tile here. No step reads it before a probe overwrites it.
- The unused fixture arrays `zero` and `tall1`, and the unused `testMap`, are not reproduced. The deprecated helpers of TileMap.java (lines 178-237) are inside a comment and are not modelled.
- `sonicgdx/Player.java` uses the Sensor class of its own package, `sonicgdx/Sensor.java`. Its `floorProcess` and `wallProcess` are the same as those of `com/sonicgdx/Sensor.java` except that the axis helpers are inlined, so the latter is the file cited. The TileMap class of that package is not part of this model; the lookups of `com/sonicgdx/TileMap.java` stand in for it. The superseded sonicswirl drafts and the duplicate `sonicgdx/Chunk.java` are not part of this model either. The GameScreen and MenuScreen classes, Game.java and the tests are not modelled either: their logic is screen lifecycle, or they assert nothing.

=== FILE: Chunks.dfy ===
/** A chunk: a grid of tiles indexed [tileX][tileY], an empty flag fixed by the constructor
    and an optional decorative texture (core/src/main/java/com/sonicgdx/Chunk.java). */
module Chunks {

  import opened Wrappers
  import opened Dimensions
  import opened Tiles

  /** The decorative texture, opaque to collision: only the asset path is kept. */
  datatype Texture = Texture(path: string)

  datatype ChunkData = ChunkData(texture: Option<Texture>, tiles: seq<seq<Tile>>, empty: bool)

  /** A chunk as the constructors can build it: the outer grid has TILES_PER_CHUNK columns.
      The inner columns are not validated and may have any length. */
  type Chunk = c: ChunkData | |c.tiles| == TILES_PER_CHUNK
    witness ChunkData(None, seq(TILES_PER_CHUNK, _ => []), true)

  /** The textured constructor: a non-empty chunk carrying its texture. */
  function NewTexturedChunk(texture: Texture, tiles: seq<seq<Tile>>): (r: Result<Chunk, DimensionError>)
    ensures r.Success? <==> |tiles| == TILES_PER_CHUNK
    ensures r.Failure? ==> r.error == InvalidDimension(|tiles|, TILES_PER_CHUNK)
    ensures r.Success? ==> !r.value.empty && r.value.texture == Some(texture) && r.value.tiles == tiles
  {
    if |tiles| == TILES_PER_CHUNK then Success(ChunkData(Some(texture), tiles, false))
    else Failure(InvalidDimension(|tiles|, TILES_PER_CHUNK))
  }

  /** The texture-less constructor: the chunk is flagged empty whatever tiles it holds. */
  function NewChunk(tiles: seq<seq<Tile>>): (r: Result<Chunk, DimensionError>)
    ensures r.Success? <==> |tiles| == TILES_PER_CHUNK
    ensures r.Failure? ==> r.error == InvalidDimension(|tiles|, TILES_PER_CHUNK)
    ensures r.Success? ==> r.value.empty && r.value.texture == None && r.value.tiles == tiles
  {
    if |tiles| == TILES_PER_CHUNK then Success(ChunkData(None, tiles, true))
    else Failure(InvalidDimension(|tiles|, TILES_PER_CHUNK))
  }

  /** Only the outer length is checked: a ragged grid with the right number of columns is accepted
      by both constructors and stored unchanged, and the two constructors differ only in the flag
      and the texture. */
  lemma ConstructorsAgreeOnGrid(texture: Texture, tiles: seq<seq<Tile>>)
    ensures NewTexturedChunk(texture, tiles).Success? == NewChunk(tiles).Success?
    ensures NewChunk(tiles).Success? ==>
      NewTexturedChunk(texture, tiles).value == NewChunk(tiles).value.(texture := Some(texture), empty := false)
  {
  }

}

=== FILE: Dimensions.dfy ===
/** The level's pixel constants and the error the tile and chunk constructors raise. */
module Dimensions {

  /** Pixels per tile edge; also the length of a tile's height and width arrays. */
  const TILE_LENGTH: int := 16

  /** Pixels per chunk edge. */
  const CHUNK_LENGTH: int := 96

  /** Tiles per chunk edge, derived exactly as the Java constant is. */
  const TILES_PER_CHUNK: int := CHUNK_LENGTH / TILE_LENGTH

  /** The IllegalArgumentException of the constructors: the length found and the one required. */
  datatype DimensionError = InvalidDimension(found: int, expected: int)

  lemma TilesPerChunkIsSix()
    ensures TILES_PER_CHUNK == 6
    ensures TILES_PER_CHUNK * TILE_LENGTH == CHUNK_LENGTH
  {
  }

}

=== FILE: Entities.dfy ===
/** What every entity shares: boundary enforcement, hitbox corners and angle snapping
    (core/src/main/java/com/sonicgdx/sonicgdx/Entity.java). */
module Entities {

  import opened Numerics

  /** Where an entity that falls off the level respawns; also the player's starting position. */
  const SPAWN_X: real := 50.0
  const SPAWN_Y: real := 200.0

  /** Falling to this height or lower triggers the respawn. */
  const RESPAWN_Y: real := -100.0

  datatype Position = Position(x: real, y: real)

  /** The hitbox edges around the centre position. */
  datatype Corners = Corners(left: real, right: real, bottom: real, top: real)

  /** enforceBoundaries: the invisible wall at x = 0, then the respawn below RESPAWN_Y. */
  function EnforceBoundaries(p: Position): (r: Position)
    ensures r.x >= 0.0
    ensures p.y <= RESPAWN_Y ==> r == Position(SPAWN_X, SPAWN_Y)
    ensures p.y > RESPAWN_Y ==> r.y == p.y && r.x == Max(p.x, 0.0)
  {
    var clamped := p.(x := Max(p.x, 0.0));
    if clamped.y <= RESPAWN_Y then Position(SPAWN_X, SPAWN_Y) else clamped
  }

  /** Exactly the positions inside the world are left alone. */
  lemma EnforceBoundariesFixedPoints(p: Position)
    ensures EnforceBoundaries(p) == p <==> p.x >= 0.0 && p.y > RESPAWN_Y
  {
  }

  /** Enforcing the boundaries twice is enforcing them once. */
  lemma EnforceBoundariesIdempotent(p: Position)
    ensures EnforceBoundaries(EnforceBoundaries(p)) == EnforceBoundaries(p)
  {
    EnforceBoundariesFixedPoints(EnforceBoundaries(p));
  }

  /** calculateCornerPositions: a box of half-width widthRadius and half-height heightRadius centred
      on the position. */
  function CalculateCornerPositions(p: Position, widthRadius: real, heightRadius: real): (c: Corners)
    ensures c.right - c.left == 2.0 * widthRadius
    ensures c.top - c.bottom == 2.0 * heightRadius
    ensures (c.left + c.right) / 2.0 == p.x && (c.bottom + c.top) / 2.0 == p.y
  {
    Corners(p.x - widthRadius, p.x + widthRadius, p.y - heightRadius, p.y + heightRadius)
  }

  /** The rounded quotient times the step lies within half a step of the angle. */
  lemma RoundedMultipleWithinHalfStep(angle: real, snapTo: real)
    requires snapTo != 0.0
    ensures Abs((Round(angle / snapTo) as real) * snapTo - angle) <= Abs(snapTo) / 2.0
  {
    var q := angle / snapTo;
    var kr: real := Round(q) as real;
    var d := kr - q;
    var e := d * snapTo;
    DivMulCancel(angle, snapTo);
    assert e == kr * snapTo - angle;
    assert Abs(d) <= 0.5;
    AbsOfProduct(d, snapTo);
    MulMonotone(Abs(d), 0.5, Abs(snapTo));
    assert Abs(e) <= Abs(snapTo) / 2.0;
    assert (Round(angle / snapTo) as real) * snapTo - angle == e;
  }

  /** snapToNearest: a whole multiple of snapTo no further than half a step from the angle. A zero
      step (a float division by zero in the source) is outside the model. */
  function SnapToNearest(angle: real, snapTo: real): (r: real)
    requires snapTo != 0.0
    ensures (r / snapTo).Floor as real == r / snapTo
    ensures Abs(r - angle) <= Abs(snapTo) / 2.0
  {
    var kr: real := Round(angle / snapTo) as real;
    RoundedMultipleWithinHalfStep(angle, snapTo);
    MulDivCancel(kr, snapTo);
    kr * snapTo
  }

  /** No whole multiple of the step is closer to the angle than the snapped one. */
  lemma SnapIsNearest(angle: real, snapTo: real, k: int)
    requires snapTo != 0.0
    ensures Abs(SnapToNearest(angle, snapTo) - angle) <= Abs(k as real * snapTo - angle)
  {
    var r := SnapToNearest(angle, snapTo);
    var j := Round(angle / snapTo);
    assert r == j as real * snapTo;
    if k != j {
      assert k as real * snapTo - r == (k - j) as real * snapTo;
      AbsOfProduct((k - j) as real, snapTo);
      MulMonotone(1.0, Abs((k - j) as real), Abs(snapTo));
      assert Abs(k as real * snapTo - r) >= Abs(snapTo);
    }
  }

  /** A multiple of the step is its own snap. */
  lemma SnapFixesMultiples(k: int, snapTo: real)
    requires snapTo != 0.0
    ensures SnapToNearest(k as real * snapTo, snapTo) == k as real * snapTo
  {
    assert (k as real * snapTo) / snapTo == k as real;
    RoundOfInteger(k);
  }

  /** Snapping to 90 degrees: 44 goes down to 0, 46 up to 90, and the half-way angle 45 rounds up. */
  lemma SnapToRightAngles()
    ensures SnapToNearest(44.0, 90.0) == 0.0
    ensures SnapToNearest(45.0, 90.0) == 90.0
    ensures SnapToNearest(46.0, 90.0) == 90.0
    ensures SnapToNearest(360.0, 90.0) == 360.0
  {
    SnapFixesMultiples(4, 90.0);
  }

}

=== FILE: Numerics.dfy ===
/** Integer and real helpers that stand for Java's and libGDX's numeric primitives. */
module Numerics {

  function Abs(x: real): real
  {
    if x < 0.0 then -x else x
  }

  function Max(a: real, b: real): real
  {
    if a >= b then a else b
  }

  function Min(a: real, b: real): real
  {
    if a <= b then a else b
  }

  /** Math.signum on a real: -1, 0 or 1. */
  function Signum(x: real): (r: real)
    ensures r * x == Abs(x)
    ensures x != 0.0 ==> Abs(r) == 1.0
  {
    if x > 0.0 then 1.0 else if x < 0.0 then -1.0 else 0.0
  }

  /** MathUtils.round: the nearest integer, halves rounded up (floor of x + 1/2). */
  function Round(x: real): (r: int)
    ensures x - 0.5 < r as real <= x + 0.5
  {
    (x + 0.5).Floor
  }

  lemma RoundOfInteger(n: int)
    ensures Round(n as real) == n
  {
  }

  /** Java's `/` on int: the quotient truncated toward zero. */
  function JavaDiv(a: int, b: int): (q: int)
    requires b > 0
    ensures a >= 0 ==> q * b <= a < q * b + b
    ensures a < 0 ==> q * b - b < a <= q * b
  {
    if a >= 0 then a / b else -((-a) / b)
  }

  /** Math.floorMod for a positive modulus: never negative, congruent to a. */
  function FloorMod(a: int, m: int): (r: int)
    requires m > 0
    ensures 0 <= r < m
    ensures a == m * (a / m) + r
  {
    a % m
  }

  /** A product of a positive factor with a factor of at least one is at least the first factor. */
  lemma {:induction false} MulAtLeast(k: int, d: int)
    requires k >= 1 && d > 0
    ensures k * d >= d
    decreases k
  {
    if k > 1 {
      MulAtLeast(k - 1, d);
      assert k * d == (k - 1) * d + d;
    }
  }

  /** Euclidean division has exactly one quotient and remainder. */
  lemma DivModUnique(n: int, d: int, q: int, r: int)
    requires 0 < d && 0 <= r < d && n == q * d + r
    ensures n / d == q && n % d == r
  {
    var q0, r0 := n / d, n % d;
    assert q * d + r == q0 * d + r0;
    assert (q - q0) * d == r0 - r;
    if q0 < q {
      MulAtLeast(q - q0, d);
    } else if q < q0 {
      assert (q0 - q) * d == r - r0;
      MulAtLeast(q0 - q, d);
    }
  }


  lemma AbsOfProduct(a: real, b: real)
    ensures Abs(a * b) == Abs(a) * Abs(b)
  {
    if a >= 0.0 && b >= 0.0 {
      assert a * b >= 0.0;
    } else if a >= 0.0 {
      assert a * (-b) >= 0.0;
    } else if b >= 0.0 {
      assert (-a) * b >= 0.0;
    } else {
      assert (-a) * (-b) >= 0.0;
    }
  }

  lemma MulMonotone(a: real, b: real, c: real)
    requires a <= b && c >= 0.0
    ensures a * c <= b * c
  {
    assert (b - a) * c >= 0.0;
  }

  /** Scaling by a factor of magnitude at most 1 never increases the magnitude. */
  lemma ScaleAtMostOne(v: real, k: real)
    requires Abs(k) <= 1.0
    ensures Abs(v * k) <= Abs(v)
  {
    AbsOfProduct(v, k);
    MulMonotone(Abs(k), 1.0, Abs(v));
  }

  /** A real divided by a non-zero step and multiplied back is unchanged. */
  lemma DivMulCancel(a: real, s: real)
    requires s != 0.0
    ensures (a / s) * s == a
  {
  }

  /** Multiplying and dividing by the same non-zero step is the identity. */
  lemma MulDivCancel(a: real, s: real)
    requires s != 0.0
    ensures (a * s) / s == a
  {
  }

}

=== FILE: Players.dfy ===
/** The player's movement state machine: ground and air movement, the floor-sensor arbitration,
    the collision gates and the per-frame update
    (core/src/main/java/com/sonicgdx/sonicgdx/Player.java). */
module Players {

  import opened Wrappers
  import opened Numerics
  import opened TileMaps
  import opened Sensors
  import opened Entities

  // Movement constants, in pixels per second (the 60 fps originals multiplied by 60).
  const ACCELERATION: real := 168.75
  const AIR_ACCELERATION: real := 337.5
  const SLOPE_FACTOR: real := 7.5
  const GRAVITY_FORCE: real := -787.5
  const DECELERATION: real := 1800.0
  const MAX_SPEED: real := 360.0
  const JUMP_FORCE: real := 390.0

  /** Releasing the jump button caps a rising vertical speed at this value; the air drag acts only
      while the vertical speed lies strictly between 0 and this value. */
  const JUMP_CAP: real := 4.0

  /** A grounded floor correction is accepted only strictly below this distance and strictly above
      its negation (or above the speed-dependent bound, whichever is higher). */
  const GROUND_TOLERANCE: real := 14.0

  /** libGDX's sine and cosine in degrees, supplied by the caller. */
  datatype Trig = Trig(sinDeg: real -> real, cosDeg: real -> real)

  /** The sine and cosine of the ground angle a movement step works with. */
  datatype Slope = Slope(sin: real, cos: real)

  /** Flat ground. */
  const FLAT := Slope(0.0, 1.0)

  /** One frame's input signals: the movement actions, the jump button (held, or pressed this frame),
      the debug toggle, and the raw keys read by debug movement. */
  datatype Input = Input(right: bool, left: bool, jumpHeld: bool, jumpJustPressed: bool, debugToggle: bool,
                         debugKeys: DebugKeys)

  /** The keys debug movement reads: D, A, W, S held, and E pressed this frame. */
  datatype DebugKeys = DebugKeys(d: bool, a: bool, w: bool, s: bool, eJustPressed: bool)

  /** Debug movement speed, in pixels per second. */
  const DEBUG_SPEED: real := 90.0

  /** The player: position, velocity, ground speed and angle, the state flags, the hitbox radii and
      the four sensors (A bottom left, B bottom right, E middle left, F middle right). */
  datatype Player = Player(
    x: real, y: real,
    vx: real, vy: real,
    groundVelocity: real, groundAngle: real,
    isGrounded: bool, isJumping: bool, debugMode: bool,
    widthRadius: real, heightRadius: real,
    sensorA: Sensor, sensorB: Sensor, sensorE: Sensor, sensorF: Sensor)

  // ---------------------------------------------------------------------------------------------
  // Sensor placement and construction

  /** calculateSensorPositions: A and B on the bottom corners, E and F at mid height on the left and
      right edges. Activity and probe results are kept. */
  function CalculateSensorPositions(p: Player): (r: Player)
    ensures var c := CalculateCornerPositions(Position(r.x, r.y), r.widthRadius, r.heightRadius);
      && r.sensorA.x == c.left && r.sensorA.y == c.bottom
      && r.sensorB.x == c.right && r.sensorB.y == c.bottom
      && r.sensorE.x == c.left && r.sensorE.y == r.y
      && r.sensorF.x == c.right && r.sensorF.y == r.y
    ensures r.sensorA.active == p.sensorA.active && r.sensorA.probe == p.sensorA.probe
    ensures r.sensorB.active == p.sensorB.active && r.sensorB.probe == p.sensorB.probe
    ensures r.sensorE.active == p.sensorE.active && r.sensorE.probe == p.sensorE.probe
    ensures r.sensorF.active == p.sensorF.active && r.sensorF.probe == p.sensorF.probe
    ensures r.(sensorA := p.sensorA, sensorB := p.sensorB, sensorE := p.sensorE, sensorF := p.sensorF) == p
  {
    var c := CalculateCornerPositions(Position(p.x, p.y), p.widthRadius, p.heightRadius);
    p.(sensorA := p.sensorA.(x := c.left, y := c.bottom),
       sensorB := p.sensorB.(x := c.right, y := c.bottom),
       sensorE := p.sensorE.(x := c.left, y := p.y),
       sensorF := p.sensorF.(x := c.right, y := p.y))
  }

  /** The constructor: at the spawn point, at rest, airborne, not jumping, not in debug mode, with
      inactive sensors placed on the hitbox. A sensor's tile starts as null in the source; here it
      starts as the empty tile, which no step reads before a probe overwrites it. */
  function NewPlayer(widthRadius: real, heightRadius: real): (r: Player)
    ensures r.x == SPAWN_X && r.y == SPAWN_Y
    ensures r.vx == 0.0 && r.vy == 0.0 && r.groundVelocity == 0.0 && r.groundAngle == 0.0
    ensures !r.isGrounded && !r.isJumping && !r.debugMode
    ensures !r.sensorA.active && !r.sensorB.active && !r.sensorE.active && !r.sensorF.active
    ensures r.sensorB.x - r.sensorA.x == 2.0 * widthRadius
    ensures r.widthRadius == widthRadius && r.heightRadius == heightRadius
    ensures r.sensorA.x == SPAWN_X - widthRadius && r.sensorA.y == SPAWN_Y - heightRadius
    ensures r.sensorB.x == SPAWN_X + widthRadius && r.sensorB.y == SPAWN_Y - heightRadius
    ensures r.sensorE.x == SPAWN_X - widthRadius && r.sensorE.y == SPAWN_Y
    ensures r.sensorF.x == SPAWN_X + widthRadius && r.sensorF.y == SPAWN_Y
    ensures CalculateSensorPositions(r) == r
    ensures r.sensorA.probe == r.sensorB.probe == r.sensorE.probe == r.sensorF.probe == Probe(GetEmptyTile(), 0.0)
  {
    var s := Sensor(0.0, 0.0, false, Probe(GetEmptyTile(), 0.0));
    CalculateSensorPositions(Player(SPAWN_X, SPAWN_Y, 0.0, 0.0, 0.0, 0.0, false, false, false,
                                    widthRadius, heightRadius, s, s, s, s))
  }

  // ---------------------------------------------------------------------------------------------
  // Ground movement

  /** The slope term of groundMove: a moving player is pulled down the slope, slowed uphill and sped
      up downhill; a player at rest stays at rest, and flat ground has no effect. */
  function SlopeTerm(groundVelocity: real, delta: real, sinAngle: real): (r: real)
    ensures groundVelocity == 0.0 ==> r == 0.0
    ensures sinAngle == 0.0 ==> r == groundVelocity
    ensures groundVelocity != 0.0 && delta > 0.0 ==>
      (r < groundVelocity <==> sinAngle > 0.0) && (r > groundVelocity <==> sinAngle < 0.0)
  {
    var pull := delta * SLOPE_FACTOR * sinAngle;
    assert delta > 0.0 ==> (pull > 0.0 <==> sinAngle > 0.0) && (pull < 0.0 <==> sinAngle < 0.0) by {
      if delta > 0.0 {
        if sinAngle > 0.0 { assert (delta * SLOPE_FACTOR) * sinAngle > 0.0; }
        if sinAngle < 0.0 { assert (delta * SLOPE_FACTOR) * -sinAngle > 0.0; }
      }
    }
    if groundVelocity != 0.0 then groundVelocity - pull else groundVelocity
  }

  /** The slope term is the same for mirrored motion on a mirrored slope. */
  lemma SlopeTermMirror(groundVelocity: real, delta: real, sinAngle: real)
    ensures SlopeTerm(-groundVelocity, delta, -sinAngle) == -SlopeTerm(groundVelocity, delta, sinAngle)
  {
  }

  /** The directional part of groundMove: reversing decelerates hard, pushing forward accelerates up
      to MAX_SPEED, and with neither or both directions held friction decays the speed toward zero. */
  function GroundAcceleration(gv: real, delta: real, right: bool, left: bool): (r: real)
    ensures right && !left ==>
      && (gv < 0.0 ==> r == gv + DECELERATION * delta)
      && (0.0 <= gv < MAX_SPEED ==> r == gv + ACCELERATION * delta)
      && (gv >= MAX_SPEED ==> r == gv)
    ensures left && !right ==>
      && (gv > 0.0 ==> r == gv - DECELERATION * delta)
      && (-MAX_SPEED < gv <= 0.0 ==> r == gv - ACCELERATION * delta)
      && (gv <= -MAX_SPEED ==> r == gv)
    ensures right == left && delta >= 0.0 ==>
      && Abs(r) == Max(Abs(gv) - ACCELERATION * delta, 0.0)
      && (gv >= 0.0 ==> r >= 0.0) && (gv <= 0.0 ==> r <= 0.0)
  {
    if right && !left then
      if gv < 0.0 then gv + DECELERATION * delta
      else if gv < MAX_SPEED then gv + ACCELERATION * delta
      else gv
    else if left && !right then
      if gv > 0.0 then gv - DECELERATION * delta
      else if gv > -MAX_SPEED then gv - ACCELERATION * delta
      else gv
    else
      gv - Min(Abs(gv), ACCELERATION * delta) * Signum(gv)
  }

  /** Left and right are mirror images: reversing the speed and swapping the buttons reverses the
      result. */
  lemma GroundAccelerationMirror(gv: real, delta: real, right: bool, left: bool)
    ensures GroundAcceleration(-gv, delta, left, right) == -GroundAcceleration(gv, delta, right, left)
  {
  }

  /** jump: an impulse of JUMP_FORCE perpendicular to the ground, and the player leaves the ground. */
  function Jump(p: Player, slope: Slope): (r: Player)
    ensures !r.isGrounded && r.isJumping
    ensures (r.vx - p.vx) * slope.cos + (r.vy - p.vy) * slope.sin == 0.0
    ensures (r.vy - p.vy) * slope.cos - (r.vx - p.vx) * slope.sin
      == JUMP_FORCE * (slope.sin * slope.sin + slope.cos * slope.cos)
    ensures slope == FLAT ==> r.vx == p.vx && r.vy == p.vy + JUMP_FORCE
    ensures r.(vx := p.vx, vy := p.vy, isGrounded := p.isGrounded, isJumping := p.isJumping) == p
  {
    p.(vx := p.vx - JUMP_FORCE * slope.sin,
       vy := p.vy + JUMP_FORCE * slope.cos,
       isGrounded := false, isJumping := true)
  }

  /** With a unit-length (sin, cos) pair the jump impulse has magnitude JUMP_FORCE. */
  lemma JumpImpulseMagnitude(p: Player, slope: Slope)
    requires slope.sin * slope.sin + slope.cos * slope.cos == 1.0
    ensures var r := Jump(p, slope);
      (r.vx - p.vx) * (r.vx - p.vx) + (r.vy - p.vy) * (r.vy - p.vy) == JUMP_FORCE * JUMP_FORCE
  {
    var s, c := slope.sin, slope.cos;
    calc {
      (-JUMP_FORCE * s) * (-JUMP_FORCE * s) + (JUMP_FORCE * c) * (JUMP_FORCE * c);
      JUMP_FORCE * JUMP_FORCE * (s * s + c * c);
    }
  }

  /** groundMove: the slope term, the directional rule, the decomposition of the ground speed along
      the slope, then the jump if it was just pressed. `slope` holds the sine and cosine of the
      player's ground angle. */
  function GroundMove(p: Player, delta: real, inp: Input, slope: Slope): (r: Player)
    ensures r.groundVelocity == GroundAcceleration(SlopeTerm(p.groundVelocity, delta, slope.sin), delta, inp.right, inp.left)
    ensures Velocity(r.vx, r.vy) == SlopeVelocity(r.groundVelocity, slope, inp.jumpJustPressed)
    ensures !inp.jumpJustPressed ==> r.isGrounded == p.isGrounded && r.isJumping == p.isJumping
    ensures inp.jumpJustPressed ==> !r.isGrounded && r.isJumping
    ensures r.x == p.x && r.y == p.y && r.groundAngle == p.groundAngle && r.debugMode == p.debugMode
    ensures r.widthRadius == p.widthRadius && r.heightRadius == p.heightRadius
    ensures r.sensorA == p.sensorA && r.sensorB == p.sensorB && r.sensorE == p.sensorE && r.sensorF == p.sensorF
  {
    var gv := GroundAcceleration(SlopeTerm(p.groundVelocity, delta, slope.sin), delta, inp.right, inp.left);
    AlongSlope(p, gv, slope, inp.jumpJustPressed)
  }

  /** A velocity (horizontal, vertical). */
  datatype Velocity = Velocity(x: real, y: real)

  /** The velocity of moving at `speed` along the slope, plus the jump impulse perpendicular to it
      and away from the ground when `jump` is set. */
  function SlopeVelocity(speed: real, slope: Slope, jump: bool): Velocity
  {
    if jump then Velocity(speed * slope.cos - JUMP_FORCE * slope.sin, speed * slope.sin + JUMP_FORCE * slope.cos)
    else Velocity(speed * slope.cos, speed * slope.sin)
  }

  /** The last steps of groundMove: the ground speed gv split into velocity along the slope, then
      the jump impulse on top if the jump was just pressed. */
  function AlongSlope(p: Player, gv: real, slope: Slope, jump: bool): (r: Player)
    ensures r.groundVelocity == gv
    ensures Velocity(r.vx, r.vy) == SlopeVelocity(r.groundVelocity, slope, jump)
    ensures !jump ==> r.isGrounded == p.isGrounded && r.isJumping == p.isJumping
    ensures jump ==> !r.isGrounded && r.isJumping
    ensures r.x == p.x && r.y == p.y && r.groundAngle == p.groundAngle && r.debugMode == p.debugMode
    ensures r.widthRadius == p.widthRadius && r.heightRadius == p.heightRadius
    ensures r.sensorA == p.sensorA && r.sensorB == p.sensorB && r.sensorE == p.sensorE && r.sensorF == p.sensorF
  {
    var q := p.(groundVelocity := gv, vx := gv * slope.cos, vy := gv * slope.sin);
    if jump then Jump(q, slope) else q
  }

  /** Ground movement on flat ground with only the right button held, repeated n frames. */
  function HoldRightOnFlat(p: Player, delta: real, n: nat): Player
  {
    if n == 0 then p
    else GroundMove(HoldRightOnFlat(p, delta, n - 1), delta, HoldRight, FLAT)
  }

  /** From rest on flat ground, holding right for n frames with n * ACCELERATION * delta equal to
      MAX_SPEED reaches MAX_SPEED exactly, and one more frame does not exceed it. */
  lemma {:induction false} AccelerateToMaxSpeed(p: Player, delta: real, n: nat)
    requires p.groundVelocity == 0.0
    requires delta > 0.0 && n as real * (ACCELERATION * delta) == MAX_SPEED
    ensures HoldRightOnFlat(p, delta, n).groundVelocity == MAX_SPEED
    ensures HoldRightOnFlat(p, delta, n + 1).groundVelocity == MAX_SPEED
  {
    var top := HoldRightOnFlat(p, delta, n);
    assert top.groundVelocity == MAX_SPEED by {
      RampIsProduct(n, ACCELERATION * delta);
      SpeedWhileAccelerating(p, delta, n, n);
    }
    FlatFrame(top, delta);
  }

  /** At 60 frames per second the climb from rest to MAX_SPEED takes 128 frames, about two seconds. */
  lemma AccelerateToMaxSpeedAtSixtyFps(p: Player)
    requires p.groundVelocity == 0.0
    ensures HoldRightOnFlat(p, 1.0 / 60.0, 128).groundVelocity == MAX_SPEED
    ensures HoldRightOnFlat(p, 1.0 / 60.0, 127).groundVelocity < MAX_SPEED
  {
    AccelerateToMaxSpeed(p, 1.0 / 60.0, 128);
    RampIsProduct(128, ACCELERATION * (1.0 / 60.0));
    SpeedWhileAccelerating(p, 1.0 / 60.0, 128, 127);
    RampIsProduct(127, ACCELERATION * (1.0 / 60.0));
  }

  /** Only the right button held. */
  const HoldRight := Input(true, false, false, false, false, DebugKeys(false, false, false, false, false))

  /** The speed after k equal steps from rest. */
  function Ramp(k: nat, step: real): real
  {
    if k == 0 then 0.0 else Ramp(k - 1, step) + step
  }

  lemma {:induction false} RampIsProduct(k: nat, step: real)
    ensures Ramp(k, step) == k as real * step
  {
    if k > 0 {
      RampIsProduct(k - 1, step);
    }
  }

  /** With a positive step the ramp strictly increases from zero. */
  lemma {:induction false} RampBelow(j: nat, k: nat, step: real)
    requires j < k && step > 0.0
    ensures 0.0 <= Ramp(j, step) < Ramp(k, step)
  {
    if j + 1 < k {
      RampBelow(j, k - 1, step);
    } else if j > 0 {
      RampBelow(j - 1, j, step);
    }
  }

  /** One frame of holding right on flat ground applies the directional rule. */
  lemma FlatFrame(q: Player, delta: real)
    ensures 0.0 <= q.groundVelocity < MAX_SPEED ==>
      GroundMove(q, delta, HoldRight, FLAT).groundVelocity == q.groundVelocity + ACCELERATION * delta
    ensures q.groundVelocity >= MAX_SPEED ==>
      GroundMove(q, delta, HoldRight, FLAT).groundVelocity == q.groundVelocity
  {
  }

  lemma {:induction false} SpeedWhileAccelerating(p: Player, delta: real, n: nat, k: nat)
    requires p.groundVelocity == 0.0
    requires delta > 0.0 && Ramp(n, ACCELERATION * delta) == MAX_SPEED
    requires k <= n
    ensures HoldRightOnFlat(p, delta, k).groundVelocity == Ramp(k, ACCELERATION * delta)
    decreases k
  {
    if k > 0 {
      SpeedWhileAccelerating(p, delta, n, k - 1);
      var prev := HoldRightOnFlat(p, delta, k - 1);
      RampBelow(k - 1, n, ACCELERATION * delta);
      FlatFrame(prev, delta);
    }
  }

  // ---------------------------------------------------------------------------------------------
  // Air movement

  /** The jump cap: while a jump is rising and the button is no longer held, the vertical speed is
      capped at JUMP_CAP. */
  function JumpCap(vy: real, jumpHeld: bool, isJumping: bool): (r: real)
    ensures !jumpHeld && isJumping ==> r == Min(vy, JUMP_CAP)
    ensures jumpHeld || !isJumping ==> r == vy
  {
    if !jumpHeld && vy > JUMP_CAP && isJumping then JUMP_CAP else vy
  }

  /** The air acceleration: twice the ground rate in the held direction while the speed that way is
      below MAX_SPEED, with no friction when neither or both directions are held. A speed within one
      frame's acceleration of the cap stays within it. */
  function AirAcceleration(vx: real, delta: real, right: bool, left: bool): (r: real)
    ensures right == left ==> r == vx
    ensures right && !left ==> r == vx || (vx < MAX_SPEED && r == vx + AIR_ACCELERATION * delta)
    ensures right && !left && delta > 0.0 ==> (r > vx <==> vx < MAX_SPEED)
    ensures left && !right ==> r == vx || (vx > -MAX_SPEED && r == vx - AIR_ACCELERATION * delta)
    ensures left && !right && delta > 0.0 ==> (r < vx <==> vx > -MAX_SPEED)
    ensures delta >= 0.0 && Abs(vx) <= MAX_SPEED + AIR_ACCELERATION * delta ==>
      Abs(r) <= MAX_SPEED + AIR_ACCELERATION * delta
  {
    if right && !left then (if vx < MAX_SPEED then vx + AIR_ACCELERATION * delta else vx)
    else if left && !right then (if vx > -MAX_SPEED then vx - AIR_ACCELERATION * delta else vx)
    else vx
  }

  /** Air acceleration is symmetric under mirroring, like the ground rule. */
  lemma AirAccelerationMirror(vx: real, delta: real, right: bool, left: bool)
    ensures AirAcceleration(-vx, delta, left, right) == -AirAcceleration(vx, delta, right, left)
  {
  }

  /** The air drag quantity, from the floor of the horizontal speed in eighths of a pixel per
      second. It opposes rightward motion of at least an eighth, and any leftward motion at all:
      the floor rounds a small leftward speed away from zero. */
  function AirDrag(vx: real, delta: real): (d: real)
    ensures delta > 0.0 ==> (d > 0.0 <==> vx >= 0.125) && (d < 0.0 <==> vx < 0.0)
  {
    var eighths := (vx / 0.125).Floor;
    assert eighths >= 1 <==> vx >= 0.125;
    assert eighths < 0 <==> vx < 0.0;
    eighths as real / 256.0 * 60.0 * delta
  }

  /** airMove: the jump cap, the air acceleration, the air drag while the vertical speed lies
      strictly between 0 and JUMP_CAP, integration of the position with the new velocity, and
      gravity last, so that it only affects the next frame's movement. */
  function AirMove(p: Player, delta: real, inp: Input): (r: Player)
    ensures var vy := JumpCap(p.vy, inp.jumpHeld, p.isJumping);
      && r.vy == vy + GRAVITY_FORCE * delta
      && r.y == p.y + vy * delta
    ensures var vy, vx := JumpCap(p.vy, inp.jumpHeld, p.isJumping), AirAcceleration(p.vx, delta, inp.right, inp.left);
      r.vx == if 0.0 < vy < JUMP_CAP then vx - AirDrag(vx, delta) else vx
    ensures r.x == p.x + r.vx * delta
    ensures r.(x := p.x, y := p.y, vx := p.vx, vy := p.vy) == p
  {
    var x0, y0, vx0, vy0 := p.x, p.y, p.vx, p.vy;
    var vy := JumpCap(vy0, inp.jumpHeld, p.isJumping);
    var vx := AirAcceleration(vx0, delta, inp.right, inp.left);
    var vx' := if 0.0 < vy && vy < JUMP_CAP then vx - AirDrag(vx, delta) else vx;
    var x, y, vy' := x0 + vx' * delta, y0 + vy * delta, vy + GRAVITY_FORCE * delta;
    p.(x := x, y := y, vx := vx', vy := vy')
  }

  /** Which sensors are active in the air. */
  datatype Activation = Activation(a: bool, b: bool, e: bool, f: bool)

  /** The sensor-activation table of setAirSensors. */
  function AirSensorActivation(vx: real, vy: real): (r: Activation)
    ensures Abs(vx) >= Abs(vy) ==> r.a && r.b && r.e != r.f && (r.f <==> vx > 0.0)
    ensures Abs(vx) < Abs(vy) ==> r.e && r.f && (r.a <==> vy <= 0.0) && (r.b <==> vy <= 0.0)
  {
    if Abs(vx) >= Abs(vy) then
      if vx > 0.0 then Activation(true, true, false, true) else Activation(true, true, true, false)
    else
      if vy > 0.0 then Activation(false, false, true, true) else Activation(true, true, true, true)
  }

  /** Across every velocity: both floor sensors share one flag, which is off exactly when moving
      mostly upward, and at least one wall sensor is on. */
  lemma AirSensorCoverage(vx: real, vy: real)
    ensures var r := AirSensorActivation(vx, vy);
      && r.a == r.b
      && (r.a <==> !(Abs(vx) < Abs(vy) && vy > 0.0))
      && (r.e || r.f)
  {
  }

  /** setAirSensors: applies the activation table to the four sensors, nothing else changes. */
  function SetAirSensors(p: Player): (r: Player)
    ensures var act := AirSensorActivation(p.vx, p.vy);
      r.sensorA.active == act.a && r.sensorB.active == act.b && r.sensorE.active == act.e && r.sensorF.active == act.f
    ensures r.sensorA.(active := p.sensorA.active) == p.sensorA && r.sensorB.(active := p.sensorB.active) == p.sensorB
    ensures r.sensorE.(active := p.sensorE.active) == p.sensorE && r.sensorF.(active := p.sensorF.active) == p.sensorF
    ensures r.(sensorA := p.sensorA, sensorB := p.sensorB, sensorE := p.sensorE, sensorF := p.sensorF) == p
  {
    var act := AirSensorActivation(p.vx, p.vy);
    p.(sensorA := p.sensorA.(active := act.a), sensorB := p.sensorB.(active := act.b),
       sensorE := p.sensorE.(active := act.e), sensorF := p.sensorF.(active := act.f))
  }

  // ---------------------------------------------------------------------------------------------
  // Floor arbitration and collision gates

  /** floorSensors: the sensor with the greater distance wins; on a tie sensor A wins only if both
      found the same tile, otherwise there is no winner. */
  function FloorSensors(a: Probe, b: Probe): (r: Option<Probe>)
    ensures r.Some? ==> r.value == a || r.value == b
    ensures r.Some? ==> r.value.distance == Max(a.distance, b.distance)
    ensures a.distance > b.distance ==> r == Some(a)
    ensures b.distance > a.distance ==> r == Some(b)
    ensures r.None? <==> a.distance == b.distance && a.tile != b.tile
  {
    if a.distance > b.distance then Some(a)
    else if a.distance < b.distance then Some(b)
    else if a.tile == b.tile then Some(a)
    else None
  }

  /** Which foot is called A does not matter: swapping the two sensors gives the same outcome. */
  lemma FloorSensorsSymmetric(a: Probe, b: Probe)
    ensures FloorSensors(b, a) == FloorSensors(a, b)
  {
  }

  /** The grounded gate: a winner whose distance lies strictly between max(-|vx| - 4, -14) and 14. */
  function GroundedAccepts(winner: Option<Probe>, vx: real): (ok: bool)
    ensures ok ==> winner.Some? && -GROUND_TOLERANCE < winner.value.distance < GROUND_TOLERANCE
    ensures winner.Some? && -4.0 < winner.value.distance < GROUND_TOLERANCE ==> ok
    ensures ok <==> winner.Some? && -Abs(vx) - 4.0 < winner.value.distance && -GROUND_TOLERANCE < winner.value.distance
                    && winner.value.distance < GROUND_TOLERANCE
  {
    winner.Some? && Max(-Abs(vx) - 4.0, -GROUND_TOLERANCE) < winner.value.distance && winner.value.distance < GROUND_TOLERANCE
  }

  /** The faster the player moves, the further below the surface the ground still holds it. */
  lemma GroundToleranceGrowsWithSpeed(winner: Option<Probe>, vx1: real, vx2: real)
    requires Abs(vx1) <= Abs(vx2) && GroundedAccepts(winner, vx1)
    ensures GroundedAccepts(winner, vx2)
  {
  }

  /** The airborne gate, by dominant direction of travel. The source tests mostly-right and
      mostly-left movement separately with the same condition. */
  function AirborneAccepts(winner: Option<Probe>, distanceA: real, distanceB: real, vx: real, vy: real): (ok: bool)
    ensures Abs(vx) < Abs(vy) && vy > 0.0 ==> !ok
    ensures ok ==> winner.Some? && winner.value.distance >= 0.0
    ensures Abs(vx) >= Abs(vy) ==> (ok <==> winner.Some? && winner.value.distance >= 0.0 && vy <= 0.0)
    ensures Abs(vx) < Abs(vy) && vy <= 0.0 ==>
      (ok <==> winner.Some? && winner.value.distance >= 0.0 && (distanceA <= -(vy + 8.0) || distanceB >= -(vy + 8.0)))
  {
    if Abs(vx) >= Abs(vy) then
      winner.Some? && winner.value.distance >= 0.0 && vy <= 0.0
    else if vy > 0.0 then
      false
    else
      winner.Some? && winner.value.distance >= 0.0 && (distanceA <= -(vy + 8.0) || distanceB >= -(vy + 8.0))
  }

  /** Whether the player moves mostly right or mostly left does not matter to the airborne gate. */
  lemma AirborneAcceptsMirror(winner: Option<Probe>, distanceA: real, distanceB: real, vx: real, vy: real)
    ensures AirborneAccepts(winner, distanceA, distanceB, -vx, vy) == AirborneAccepts(winner, distanceA, distanceB, vx, vy)
  {
  }

  /** The airborne gate only accepts surfaces at or above the feet, so a landing it accepts within
      the ground tolerance is one the grounded gate would also accept, at any speed. */
  lemma AirborneLandingPassesGroundedGate(winner: Option<Probe>, distanceA: real, distanceB: real,
                                          vx: real, vy: real, speed: real)
    requires AirborneAccepts(winner, distanceA, distanceB, vx, vy)
    requires winner.value.distance < GROUND_TOLERANCE
    ensures GroundedAccepts(winner, speed)
  {
  }

  /** The ground-speed bands of a landing: the horizontal speed carries over on shallow ground and
      wherever it dominates; on steeper ground a dominant vertical speed is projected onto the
      slope (halved on the middle band); angles in no band keep the previous ground speed. */
  function LandingVelocity(angle: real, vx: real, vy: real, groundVelocity: real, sinAngle: real): (r: real)
    ensures 0.0 <= angle <= 23.0 ==> r == vx
    ensures (24.0 <= angle <= 45.0 || 46.0 <= angle <= 90.0) && Abs(vx) >= Abs(vy) ==> r == vx
    ensures 24.0 <= angle <= 45.0 && Abs(vx) < Abs(vy) ==> r == vy * 0.5 * -sinAngle
    ensures 46.0 <= angle <= 90.0 && Abs(vx) < Abs(vy) ==> r == vy * -sinAngle
    ensures !(0.0 <= angle <= 23.0 || 24.0 <= angle <= 45.0 || 46.0 <= angle <= 90.0) ==> r == groundVelocity
  {
    if 0.0 <= angle && angle <= 23.0 then vx
    else if 24.0 <= angle && angle <= 45.0 then (if Abs(vx) >= Abs(vy) then vx else vy * 0.5 * -sinAngle)
    else if 46.0 <= angle && angle <= 90.0 then (if Abs(vx) >= Abs(vy) then vx else vy * -sinAngle)
    else groundVelocity
  }

  /** The bands leave gaps: the fixture's reverse slope (-45 degrees) and non-integer angles between
      the bands keep the ground speed the player had before leaving the ground. */
  lemma LandingOutsideBandsKeepsSpeed(vx: real, vy: real, groundVelocity: real, sinAngle: real)
    ensures LandingVelocity(RvTile.angle, vx, vy, groundVelocity, sinAngle) == groundVelocity
    ensures LandingVelocity(23.5, vx, vy, groundVelocity, sinAngle) == groundVelocity
    ensures LandingVelocity(45.5, vx, vy, groundVelocity, sinAngle) == groundVelocity
  {
  }

  /** Inside the bands, with a sine of magnitude at most 1, a landing never produces a ground speed
      larger than the larger velocity component. */
  lemma LandingSpeedBounded(angle: real, vx: real, vy: real, groundVelocity: real, sinAngle: real)
    requires Abs(sinAngle) <= 1.0
    requires 0.0 <= angle <= 23.0 || 24.0 <= angle <= 45.0 || 46.0 <= angle <= 90.0
    ensures Abs(LandingVelocity(angle, vx, vy, groundVelocity, sinAngle)) <= Max(Abs(vx), Abs(vy))
  {
    SteepLandingBounded(vy, sinAngle);
  }

  /** The slope projections of the landing bands are no larger than the vertical speed. */
  lemma SteepLandingBounded(vy: real, sinAngle: real)
    requires Abs(sinAngle) <= 1.0
    ensures Abs(vy * -sinAngle) <= Abs(vy) && Abs(vy * 0.5 * -sinAngle) <= Abs(vy)
  {
    ScaleAtMostOne(vy, -sinAngle);
    ScaleAtMostOne(vy, 0.5);
    ScaleAtMostOne(vy * 0.5, -sinAngle);
  }

  /** groundCollision: moves the player vertically by the winning distance, takes the found tile's
      angle (or snaps the player's own angle when that angle is the flagged 360), and on a landing
      sets the ground speed from the landing bands and leaves the jump. */
  function GroundCollision(p: Player, winner: Probe, trig: Trig): (r: Player)
    ensures r.y == p.y + winner.distance && r.x == p.x
    ensures p.groundAngle == 360.0 ==> r.groundAngle == SnapToNearest(p.groundAngle, 90.0)
    ensures p.groundAngle != 360.0 ==> r.groundAngle == winner.tile.angle
    ensures r.isGrounded
    ensures !p.isGrounded ==> (!r.isJumping
      && r.groundVelocity == LandingVelocity(r.groundAngle, p.vx, p.vy, p.groundVelocity, trig.sinDeg(r.groundAngle)))
    ensures p.isGrounded ==> r.isJumping == p.isJumping && r.groundVelocity == p.groundVelocity
    ensures r.(y := p.y, groundAngle := p.groundAngle, groundVelocity := p.groundVelocity,
               isGrounded := p.isGrounded, isJumping := p.isJumping) == p
  {
    var angle := if p.groundAngle == 360.0 then SnapToNearest(p.groundAngle, 90.0) else winner.tile.angle;
    var q := p.(y := p.y + winner.distance, groundAngle := angle);
    if !p.isGrounded then
      q.(groundVelocity := LandingVelocity(angle, p.vx, p.vy, p.groundVelocity, trig.sinDeg(angle)),
         isGrounded := true, isJumping := false)
    else q
  }

  /** The flag test reads the player's angle, not the tile's: a player already at 360 stays at 360
      (snapping 360 gives 360), and a tile flagged 360 is simply adopted as the new angle. */
  lemma FlaggedAngleQuirk(p: Player, winner: Probe, trig: Trig)
    ensures p.groundAngle == 360.0 ==> GroundCollision(p, winner, trig).groundAngle == 360.0
    ensures p.groundAngle == 44.0 && winner.tile.angle == 360.0 ==> GroundCollision(p, winner, trig).groundAngle == 360.0
  {
    SnapToRightAngles();
  }

  /** Once the player has collided, colliding again with the same tile at distance zero changes
      nothing: the player is already grounded, on the surface, at the tile's angle. */
  lemma GroundCollisionSettles(p: Player, winner: Probe, trig: Trig)
    ensures var q := GroundCollision(p, winner, trig);
      GroundCollision(q, winner.(distance := 0.0), trig) == q
  {
  }

  /** Landing on flat ground carries the horizontal velocity over exactly. */
  lemma FlatLandingKeepsHorizontalSpeed(p: Player, winner: Probe, trig: Trig)
    requires !p.isGrounded && p.groundAngle != 360.0 && winner.tile.angle == 0.0
    ensures GroundCollision(p, winner, trig).groundVelocity == p.vx
  {
  }

  /** wallCollision: moves the player horizontally by the sensor's distance, nothing else. */
  function WallCollision(p: Player, sensor: Probe): (r: Player)
    ensures r.x - p.x == sensor.distance
    ensures r.(x := p.x) == p
  {
    p.(x := p.x + sensor.distance)
  }

  /** The debug toggle: flips debug mode and zeroes ground speed, velocity and angle. */
  function ToggleDebug(p: Player): (r: Player)
    ensures r.debugMode != p.debugMode
    ensures r.groundVelocity == 0.0 && r.vx == 0.0 && r.vy == 0.0 && r.groundAngle == 0.0
    ensures r.(debugMode := p.debugMode, groundVelocity := p.groundVelocity, vx := p.vx, vy := p.vy,
               groundAngle := p.groundAngle) == p
  {
    p.(debugMode := !p.debugMode, groundVelocity := 0.0, vx := 0.0, vy := 0.0, groundAngle := 0.0)
  }

  /** Toggling twice restores the mode but not the motion, which stays zeroed. */
  lemma ToggleDebugTwice(p: Player)
    ensures ToggleDebug(ToggleDebug(p)) == ToggleDebug(p).(debugMode := p.debugMode)
  {
  }

  /** debugMove: free movement at DEBUG_SPEED in each held direction (opposite keys cancel), and
      a 45 degree turn when E is pressed; velocity and state flags are untouched. */
  function DebugMove(p: Player, delta: real, keys: DebugKeys): (r: Player)
    ensures keys.d == keys.a ==> r.x == p.x
    ensures keys.d && !keys.a ==> r.x == p.x + DEBUG_SPEED * delta
    ensures keys.a && !keys.d ==> r.x == p.x - DEBUG_SPEED * delta
    ensures keys.w == keys.s ==> r.y == p.y
    ensures keys.w && !keys.s ==> r.y == p.y + DEBUG_SPEED * delta
    ensures keys.s && !keys.w ==> r.y == p.y - DEBUG_SPEED * delta
    ensures r.groundAngle == if keys.eJustPressed then p.groundAngle + 45.0 else p.groundAngle
    ensures r.(x := p.x, y := p.y, groundAngle := p.groundAngle) == p
  {
    var x1 := if keys.d then p.x + DEBUG_SPEED * delta else p.x;
    var x2 := if keys.a then x1 - DEBUG_SPEED * delta else x1;
    var y1 := if keys.w then p.y + DEBUG_SPEED * delta else p.y;
    var y2 := if keys.s then y1 - DEBUG_SPEED * delta else y1;
    p.(x := x2, y := y2, groundAngle := if keys.eJustPressed then p.groundAngle + 45.0 else p.groundAngle)
  }

  // ---------------------------------------------------------------------------------------------
  // The frame

  /** The air branch of update: air movement, the sensor table, the wall probe of sensor F when it
      is active, and a wall push whenever F's distance (possibly left over from an earlier frame
      when F is inactive) is negative. */
  function AirStep(p: Player, m: TileMap, delta: real, inp: Input): (r: Player)
    ensures var moved := AirMove(p, delta, inp);
      && r.x <= moved.x
      && (r.sensorF.probe.distance < 0.0 ==> r.x == moved.x + r.sensorF.probe.distance)
      && (r.sensorF.probe.distance >= 0.0 ==> r.x == moved.x)
      && r.y == moved.y && r.vx == moved.vx && r.vy == moved.vy
    ensures var moved := AirMove(p, delta, inp);
      var act := AirSensorActivation(moved.vx, moved.vy);
      r.sensorA.active == act.a && r.sensorB.active == act.b && r.sensorE.active == act.e && r.sensorF.active == act.f
    ensures r.sensorF.active ==> r.sensorF.probe == WallProcess(m, p.sensorF.x, p.sensorF.y)
    ensures !r.sensorF.active ==> r.sensorF.probe == p.sensorF.probe
    ensures r.sensorA.(active := p.sensorA.active) == p.sensorA && r.sensorB.(active := p.sensorB.active) == p.sensorB
    ensures r.sensorE.(active := p.sensorE.active) == p.sensorE
    ensures r.sensorF.x == p.sensorF.x && r.sensorF.y == p.sensorF.y
    ensures r.(x := p.x, y := p.y, vx := p.vx, vy := p.vy,
               sensorA := p.sensorA, sensorB := p.sensorB, sensorE := p.sensorE, sensorF := p.sensorF) == p
  {
    var q := SetAirSensors(AirMove(p, delta, inp));
    var q' := if q.sensorF.active then q.(sensorF := q.sensorF.(probe := WallProcess(m, q.sensorF.x, q.sensorF.y))) else q;
    if q'.sensorF.probe.distance < 0.0 then WallCollision(q', q'.sensorF.probe) else q'
  }

  /** The ground branch of update: ground movement, both floor sensors activated, and the position
      advanced by the velocity. */
  function GroundStep(p: Player, delta: real, inp: Input, slope: Slope): (r: Player)
    ensures var moved := GroundMove(p, delta, inp, slope);
      && r.x == p.x + moved.vx * delta && r.y == p.y + moved.vy * delta
      && r.vx == moved.vx && r.vy == moved.vy && r.isGrounded == moved.isGrounded
    ensures var moved := GroundMove(p, delta, inp, slope);
      && r.(x := moved.x, y := moved.y, sensorA := moved.sensorA, sensorB := moved.sensorB) == moved
      && r.sensorA == moved.sensorA.(active := true) && r.sensorB == moved.sensorB.(active := true)
  {
    var q := GroundMove(p, delta, inp, slope);
    q.(sensorA := q.sensorA.(active := true), sensorB := q.sensorB.(active := true),
       x := p.x + q.vx * delta, y := p.y + q.vy * delta)
  }

  /** The floor part of update, run when both floor sensors are active: probe both, arbitrate, and
      apply groundCollision through the grounded or the airborne gate; a grounded player whose gate
      refuses leaves the ground. */
  function FloorStep(p: Player, m: TileMap, trig: Trig): (r: Player)
    ensures !(p.sensorA.active && p.sensorB.active) ==> r == p
    ensures p.sensorA.active && p.sensorB.active ==>
      var a, b := FloorProcess(m, p.sensorA.x, p.sensorA.y), FloorProcess(m, p.sensorB.x, p.sensorB.y);
      var w := FloorSensors(a, b);
      var hit := if p.isGrounded then GroundedAccepts(w, p.vx) else AirborneAccepts(w, a.distance, b.distance, p.vx, p.vy);
      && r.sensorA.probe == a && r.sensorB.probe == b
      && (r.isGrounded <==> hit)
      && (hit ==> r.y == p.y + w.value.distance)
      && (!hit ==> r.y == p.y)
    ensures p.sensorA.active && p.sensorB.active ==>
      var a, b := FloorProcess(m, p.sensorA.x, p.sensorA.y), FloorProcess(m, p.sensorB.x, p.sensorB.y);
      var q := p.(sensorA := p.sensorA.(probe := a), sensorB := p.sensorB.(probe := b));
      var w := FloorSensors(a, b);
      var hit := if p.isGrounded then GroundedAccepts(w, p.vx) else AirborneAccepts(w, a.distance, b.distance, p.vx, p.vy);
      && (hit ==> r == GroundCollision(q, w.value, trig))
      && (!hit ==> r == q.(isGrounded := false))
    ensures r.x == p.x && r.vx == p.vx && r.vy == p.vy
  {
    if p.sensorA.active && p.sensorB.active then
      var a, b := FloorProcess(m, p.sensorA.x, p.sensorA.y), FloorProcess(m, p.sensorB.x, p.sensorB.y);
      var q := p.(sensorA := p.sensorA.(probe := a), sensorB := p.sensorB.(probe := b));
      var w := FloorSensors(a, b);
      if q.isGrounded then
        if GroundedAccepts(w, q.vx) then GroundCollision(q, w.value, trig) else q.(isGrounded := false)
      else if AirborneAccepts(w, a.distance, b.distance, q.vx, q.vy) then GroundCollision(q, w.value, trig)
      else q
    else p
  }

  /** The part of the sensors a frame carries over besides their positions: each sensor's activity
      and its last probe result. */
  predicate SameSensorState(r: Player, q: Player)
  {
    && r.sensorA.active == q.sensorA.active && r.sensorA.probe == q.sensorA.probe
    && r.sensorB.active == q.sensorB.active && r.sensorB.probe == q.sensorB.probe
    && r.sensorE.active == q.sensorE.active && r.sensorE.probe == q.sensorE.probe
    && r.sensorF.active == q.sensorF.active && r.sensorF.probe == q.sensorF.probe
  }

  /** update: the debug toggle, then (outside debug mode) the air or ground branch followed by the
      floor step, then the boundaries and the sensor positions for the next frame. The sensors
      probe at the positions set at the end of the previous frame. */
  function Update(p: Player, m: TileMap, delta: real, inp: Input, trig: Trig): (r: Player)
    ensures r.x >= 0.0
    ensures var c := CalculateCornerPositions(Position(r.x, r.y), r.widthRadius, r.heightRadius);
      && r.sensorA.x == c.left && r.sensorA.y == c.bottom && r.sensorB.x == c.right && r.sensorB.y == c.bottom
      && r.sensorE.x == c.left && r.sensorE.y == r.y && r.sensorF.x == c.right && r.sensorF.y == r.y
    ensures r.debugMode == (p.debugMode != inp.debugToggle)
    ensures inp.debugToggle && !p.debugMode ==>
      && r.groundVelocity == 0.0 && r.vx == 0.0 && r.vy == 0.0
      && r.groundAngle == if inp.debugKeys.eJustPressed then 45.0 else 0.0
    ensures p.debugMode && !inp.debugToggle ==>
      r.vx == p.vx && r.vy == p.vy && r.groundVelocity == p.groundVelocity && r.isGrounded == p.isGrounded
    ensures r.y > RESPAWN_Y
    ensures r.widthRadius == p.widthRadius && r.heightRadius == p.heightRadius
    ensures var p1 := if inp.debugToggle then ToggleDebug(p) else p;
      p1.debugMode ==> SameSensorState(r, p1)
    ensures var p1 := if inp.debugToggle then ToggleDebug(p) else p;
      !p1.debugMode && !p1.isGrounded ==>
        var moved := AirMove(p1, delta, inp);
        var p2 := FloorStep(AirStep(p1, m, delta, inp), m, trig);
        && r.vx == moved.vx && r.vy == moved.vy
        && r.groundVelocity == p2.groundVelocity && r.groundAngle == p2.groundAngle
        && r.isGrounded == p2.isGrounded && r.isJumping == p2.isJumping
        && Position(r.x, r.y) == EnforceBoundaries(Position(p2.x, p2.y))
        && SameSensorState(r, p2)
    ensures var p1 := if inp.debugToggle then ToggleDebug(p) else p;
      var slope := Slope(trig.sinDeg(p1.groundAngle), trig.cosDeg(p1.groundAngle));
      !p1.debugMode && p1.isGrounded ==>
        var moved := GroundMove(p1, delta, inp, slope);
        var p2 := FloorStep(GroundStep(p1, delta, inp, slope), m, trig);
        && r.vx == moved.vx && r.vy == moved.vy
        && r.groundVelocity == p2.groundVelocity && r.groundAngle == p2.groundAngle
        && r.isGrounded == p2.isGrounded && r.isJumping == p2.isJumping
        && Position(r.x, r.y) == EnforceBoundaries(Position(p2.x, p2.y))
        && SameSensorState(r, p2)
  {
    var p1 := if inp.debugToggle then ToggleDebug(p) else p;
    var p2 :=
      if p1.debugMode then DebugMove(p1, delta, inp.debugKeys)
      else if !p1.isGrounded then FloorStep(AirStep(p1, m, delta, inp), m, trig)
      else FloorStep(GroundStep(p1, delta, inp, Slope(trig.sinDeg(p1.groundAngle), trig.cosDeg(p1.groundAngle))), m, trig);
    var pos := EnforceBoundaries(Position(p2.x, p2.y));
    CalculateSensorPositions(p2.(x := pos.x, y := pos.y))
  }

}

=== FILE: Sensors.dfy ===
/** The floor and wall probes: from a sensor position and the level, a signed distance to the
    nearest surface and the tile it belongs to (core/src/main/java/com/sonicgdx/Sensor.java). */
module Sensors {

  import opened Numerics
  import opened Dimensions
  import opened Tiles
  import opened TileMaps
  import opened Chunks

  /** What a probe leaves in its sensor: the tile found and the signed distance to its surface. */
  datatype Probe = Probe(tile: Tile, distance: real)

  /** The integer part of a probe: the tile found and the pixel coordinate of its surface. */
  datatype Hit = Hit(tile: Tile, surface: int)

  /** A sensor: its position, whether its owner evaluates it, and the result of its last probe. */
  datatype Sensor = Sensor(x: real, y: real, active: bool, probe: Probe)

  /** The distance written by a probe at a negative floor position: too far below to ever collide. */
  const FLOOR_OUT_OF_BOUNDS: real := -50.0

  /** The distance written by a probe at a negative wall position: positive, so never accepted. */
  const WALL_OUT_OF_BOUNDS: real := 50.0

  // ---------------------------------------------------------------------------------------------
  // Axis decomposition

  /** calcSurroundingChunkOnAxis: rounding an int is the identity, then Java's truncating division. */
  function CalcSurroundingChunkOnAxis(p: int): (c: int)
    ensures p >= 0 ==> c * CHUNK_LENGTH <= p < c * CHUNK_LENGTH + CHUNK_LENGTH
    ensures p < 0 ==> c * CHUNK_LENGTH - CHUNK_LENGTH < p <= c * CHUNK_LENGTH
  {
    RoundOfInteger(p);
    JavaDiv(Round(p as real), CHUNK_LENGTH)
  }

  /** calcSurroundingTileOnAxis: the tile index inside the chunk, always in range. */
  function CalcSurroundingTileOnAxis(p: int): (t: int)
    ensures 0 <= t < TILES_PER_CHUNK
  {
    RoundOfInteger(p);
    FloorMod(Round(p as real), CHUNK_LENGTH) / TILE_LENGTH
  }

  /** For a non-negative pixel coordinate, chunk, tile and block (the pixel inside the tile) split it
      exactly, and chunk and tile are the global tile index divided by and reduced modulo
      TILES_PER_CHUNK. */
  lemma AxisDecomposition(p: int)
    ensures p >= 0 ==>
      && CalcSurroundingChunkOnAxis(p) * CHUNK_LENGTH + CalcSurroundingTileOnAxis(p) * TILE_LENGTH
         + FloorMod(p, TILE_LENGTH) == p
      && CalcSurroundingChunkOnAxis(p) == (p / TILE_LENGTH) / TILES_PER_CHUNK
      && CalcSurroundingTileOnAxis(p) == (p / TILE_LENGTH) % TILES_PER_CHUNK
  {
    if p >= 0 {
      var c := CalcSurroundingChunkOnAxis(p);
      var r := p % CHUNK_LENGTH;
      DivModUnique(p, CHUNK_LENGTH, p / CHUNK_LENGTH, r);
      assert c == p / CHUNK_LENGTH;
      var t := r / TILE_LENGTH;
      var s := r % TILE_LENGTH;
      assert t == CalcSurroundingTileOnAxis(p);
      assert r == t * TILE_LENGTH + s;
      assert p == (c * TILES_PER_CHUNK + t) * TILE_LENGTH + s;
      DivModUnique(p, TILE_LENGTH, c * TILES_PER_CHUNK + t, s);
      DivModUnique(c * TILES_PER_CHUNK + t, TILES_PER_CHUNK, c, t);
    }
  }

  /** The guards before the probes matter: for a negative coordinate the truncating chunk and the
      floor-modulo tile disagree, and the decomposition no longer adds back up. */
  lemma NegativeAxisDoesNotDecompose()
    ensures CalcSurroundingChunkOnAxis(-1) == 0 && CalcSurroundingTileOnAxis(-1) == 5
    ensures CalcSurroundingChunkOnAxis(-1) * CHUNK_LENGTH + CalcSurroundingTileOnAxis(-1) * TILE_LENGTH
            + FloorMod(-1, TILE_LENGTH) != -1
  {
  }

  /** One tile further along an axis from global tile index i: the next tile of the same chunk,
      or index 0 of the next chunk when i is a chunk's last index. */
  lemma NextTileWraps(i: int)
    ensures i % TILES_PER_CHUNK < TILES_PER_CHUNK - 1 ==>
      (i + 1) / TILES_PER_CHUNK == i / TILES_PER_CHUNK && (i + 1) % TILES_PER_CHUNK == i % TILES_PER_CHUNK + 1
    ensures i % TILES_PER_CHUNK == TILES_PER_CHUNK - 1 ==>
      (i + 1) / TILES_PER_CHUNK == i / TILES_PER_CHUNK + 1 && (i + 1) % TILES_PER_CHUNK == 0
  {
    var c, t := i / TILES_PER_CHUNK, i % TILES_PER_CHUNK;
    if t < TILES_PER_CHUNK - 1 {
      DivModUnique(i + 1, TILES_PER_CHUNK, c, t + 1);
    } else {
      DivModUnique(i + 1, TILES_PER_CHUNK, c + 1, 0);
    }
  }

  /** One tile back along an axis from global tile index i: the previous tile of the same chunk,
      or the last index of the previous chunk when i is a chunk's index 0. */
  lemma PreviousTileWraps(i: int)
    ensures i % TILES_PER_CHUNK > 0 ==>
      (i - 1) / TILES_PER_CHUNK == i / TILES_PER_CHUNK && (i - 1) % TILES_PER_CHUNK == i % TILES_PER_CHUNK - 1
    ensures i % TILES_PER_CHUNK == 0 ==>
      (i - 1) / TILES_PER_CHUNK == i / TILES_PER_CHUNK - 1 && (i - 1) % TILES_PER_CHUNK == TILES_PER_CHUNK - 1
  {
    var c, t := i / TILES_PER_CHUNK, i % TILES_PER_CHUNK;
    if t > 0 {
      DivModUnique(i - 1, TILES_PER_CHUNK, c, t - 1);
    } else {
      DivModUnique(i - 1, TILES_PER_CHUNK, c - 1, TILES_PER_CHUNK - 1);
    }
  }

  // ---------------------------------------------------------------------------------------------
  // Floor probe

  /** The integer core of floorProcess for rounded coordinates, following the Java branch by branch:
      read the column height in the containing tile; when it is full, look one tile up (regression)
      and adopt that tile if its column is not empty; when it is empty, move one tile down
      (extension). For every non-negative position, this chunk-and-tile arithmetic, wrap-around
      included, computes the reference: the surface reported is the top of the solid column
      (row * TILE_LENGTH + height) of the tile reported, and that tile is the one at FloorRow in the
      sensor's column. */
  function FloorSurface(m: TileMap, px: int, py: int): (r: Hit)
    ensures px >= 0 && py >= 0 ==>
      var row := FloorRow(m, px, py);
      var t := TileAt(m, px / TILE_LENGTH, row);
      r == Hit(t, row * TILE_LENGTH + GetHeight(t, px % TILE_LENGTH))
  {
    FloorCells(m, px, py);
    var tileX := CalcSurroundingTileOnAxis(px);
    var chunkX := CalcSurroundingChunkOnAxis(px);
    var tileY := CalcSurroundingTileOnAxis(py);
    var chunkY := CalcSurroundingChunkOnAxis(py);
    var block := FloorMod(px, TILE_LENGTH);
    var height := GetHeight(GetTile(m, chunkX, chunkY, tileX, tileY), block);
    var surface := chunkY * CHUNK_LENGTH + tileY * TILE_LENGTH + height;
    if height == TILE_LENGTH then
      var tempChunkY := if tileY < TILES_PER_CHUNK - 1 then chunkY else chunkY + 1;
      var tempTileY := if tileY < TILES_PER_CHUNK - 1 then tileY + 1 else 0;
      var above := GetHeight(GetTile(m, chunkX, tempChunkY, tileX, tempTileY), block);
      if above > 0 then Hit(GetTile(m, chunkX, tempChunkY, tileX, tempTileY), surface + above)
      else Hit(GetTile(m, chunkX, chunkY, tileX, tileY), surface)
    else if height == 0 then
      var lowerChunkY := if tileY == 0 then chunkY - 1 else chunkY;
      var lowerTileY := if tileY == 0 then TILES_PER_CHUNK - 1 else tileY - 1;
      var below := GetHeight(GetTile(m, chunkX, lowerChunkY, tileX, lowerTileY), block);
      Hit(GetTile(m, chunkX, lowerChunkY, tileX, lowerTileY),
          if below == 0 then surface - TILE_LENGTH else surface - (TILE_LENGTH - below))
    else Hit(GetTile(m, chunkX, chunkY, tileX, tileY), surface)
  }

  /** For a non-negative position, each cell the floor probe reads by chunk and tile is the cell
      at the matching global column and row. */
  lemma FloorCells(m: TileMap, px: int, py: int)
    ensures px >= 0 && py >= 0 ==>
      var tileX, chunkX := CalcSurroundingTileOnAxis(px), CalcSurroundingChunkOnAxis(px);
      var tileY, chunkY := CalcSurroundingTileOnAxis(py), CalcSurroundingChunkOnAxis(py);
      var col, row := px / TILE_LENGTH, py / TILE_LENGTH;
      && FloorMod(px, TILE_LENGTH) == px % TILE_LENGTH
      && chunkY * CHUNK_LENGTH + tileY * TILE_LENGTH == row * TILE_LENGTH
      && GetTile(m, chunkX, chunkY, tileX, tileY) == TileAt(m, col, row)
      && (tileY < TILES_PER_CHUNK - 1 ==> GetTile(m, chunkX, chunkY, tileX, tileY + 1) == TileAt(m, col, row + 1))
      && (tileY == TILES_PER_CHUNK - 1 ==> GetTile(m, chunkX, chunkY + 1, tileX, 0) == TileAt(m, col, row + 1))
      && (tileY > 0 ==> GetTile(m, chunkX, chunkY, tileX, tileY - 1) == TileAt(m, col, row - 1))
      && (tileY == 0 ==> GetTile(m, chunkX, chunkY - 1, tileX, TILES_PER_CHUNK - 1) == TileAt(m, col, row - 1))
  {
    AxisDecomposition(px);
    AxisDecomposition(py);
    NextTileWraps(py / TILE_LENGTH);
    PreviousTileWraps(py / TILE_LENGTH);
  }

  /** The height of column `block` of the tile at a global tile column and row. */
  function ColumnHeight(m: TileMap, col: int, row: int, block: int): int
  {
    GetHeight(TileAt(m, col, row), block)
  }

  /** Reference definition, in global tile rows and free of chunk arithmetic: the row whose column
      top the floor probe reports. A full column defers to the row above when that one has solid
      pixels in the column; an empty column defers to the row below; otherwise the containing row. */
  function FloorRow(m: TileMap, px: int, py: int): (r: int)
    ensures py / TILE_LENGTH - 1 <= r <= py / TILE_LENGTH + 1
  {
    var col, row, block := px / TILE_LENGTH, py / TILE_LENGTH, px % TILE_LENGTH;
    var h := ColumnHeight(m, col, row, block);
    if h == TILE_LENGTH then (if ColumnHeight(m, col, row + 1, block) > 0 then row + 1 else row)
    else if h == 0 then row - 1
    else row
  }

  /** floorProcess: the sentinel for a negative position, otherwise the probe at the rounded position
      with the distance measured from the unrounded height. Positive distances mean the surface is
      above the sensor. */
  function FloorProcess(m: TileMap, x: real, y: real): (r: Probe)
    ensures x < 0.0 || y < 0.0 ==> r == Probe(GetEmptyTile(), FLOOR_OUT_OF_BOUNDS)
    ensures x >= 0.0 && y >= 0.0 ==>
      var px := Round(x);
      var row := FloorRow(m, px, Round(y));
      && r.tile == TileAt(m, px / TILE_LENGTH, row)
      && r.distance == (row * TILE_LENGTH + GetHeight(r.tile, px % TILE_LENGTH)) as real - y
  {
    if x < 0.0 || y < 0.0 then Probe(GetEmptyTile(), FLOOR_OUT_OF_BOUNDS)
    else
      var px, py := Round(x), Round(y);
      var hit := FloorSurface(m, px, py);
      Probe(hit.tile, hit.surface as real - y)
  }

  // ---------------------------------------------------------------------------------------------
  // Wall probe

  /** The integer core of wallProcess for rounded coordinates, following the Java branch by branch,
      including its two departures from the floor probe's symmetry: the regression and extension
      probes read the neighbouring tile's HEIGHT array, and at the chunk's right edge the extension
      moves to the next chunk but resets tileY to 0 and leaves tileX at the last column. For every
      non-negative position it computes WallReference. */
  function WallSurface(m: TileMap, px: int, py: int): (r: Hit)
    ensures px >= 0 && py >= 0 ==> r == WallReference(m, px, py)
  {
    WallCells(m, px, py);
    var tileX := CalcSurroundingTileOnAxis(px);
    var chunkX := CalcSurroundingChunkOnAxis(px);
    var tileY := CalcSurroundingTileOnAxis(py);
    var chunkY := CalcSurroundingChunkOnAxis(py);
    var block := FloorMod(py, TILE_LENGTH);
    var width := GetWidth(GetTile(m, chunkX, chunkY, tileX, tileY), block);
    var surface := chunkX * CHUNK_LENGTH + (tileX + 1) * TILE_LENGTH - width;
    if width == TILE_LENGTH then
      var tempChunkX := if tileX > 0 then chunkX else chunkX - 1;
      var tempTileX := if tileX > 0 then tileX - 1 else TILES_PER_CHUNK - 1;
      var behind := GetHeight(GetTile(m, tempChunkX, chunkY, tempTileX, tileY), block);
      if behind > 0 then Hit(GetTile(m, tempChunkX, chunkY, tempTileX, tileY), surface - behind)
      else Hit(GetTile(m, chunkX, chunkY, tileX, tileY), surface)
    else if width == 0 then
      var nextChunkX := if tileX == TILES_PER_CHUNK - 1 then chunkX + 1 else chunkX;
      var nextTileX := if tileX == TILES_PER_CHUNK - 1 then tileX else tileX + 1;
      var nextTileY := if tileX == TILES_PER_CHUNK - 1 then 0 else tileY;
      var ahead := GetHeight(GetTile(m, nextChunkX, chunkY, nextTileX, nextTileY), block);
      Hit(GetTile(m, nextChunkX, chunkY, nextTileX, nextTileY),
          if ahead == 0 then surface + TILE_LENGTH else surface + (TILE_LENGTH - ahead))
    else Hit(GetTile(m, chunkX, chunkY, tileX, tileY), surface)
  }

  /** For a non-negative position, each cell the wall probe reads by chunk and tile is the cell
      WallReference reads by global column and row. */
  lemma WallCells(m: TileMap, px: int, py: int)
    ensures px >= 0 && py >= 0 ==>
      var tileX, chunkX := CalcSurroundingTileOnAxis(px), CalcSurroundingChunkOnAxis(px);
      var tileY, chunkY := CalcSurroundingTileOnAxis(py), CalcSurroundingChunkOnAxis(py);
      var col, row := px / TILE_LENGTH, py / TILE_LENGTH;
      && FloorMod(py, TILE_LENGTH) == py % TILE_LENGTH
      && chunkX * CHUNK_LENGTH + (tileX + 1) * TILE_LENGTH == (col + 1) * TILE_LENGTH
      && GetTile(m, chunkX, chunkY, tileX, tileY) == TileAt(m, col, row)
      && (tileX > 0 ==> GetTile(m, chunkX, chunkY, tileX - 1, tileY) == TileAt(m, col - 1, row))
      && (tileX == 0 ==> GetTile(m, chunkX - 1, chunkY, TILES_PER_CHUNK - 1, tileY) == TileAt(m, col - 1, row))
      && (tileX == TILES_PER_CHUNK - 1 <==> col % TILES_PER_CHUNK == TILES_PER_CHUNK - 1)
      && (tileX < TILES_PER_CHUNK - 1 ==> GetTile(m, chunkX, chunkY, tileX + 1, tileY) == TileAt(m, col + 1, row))
      && (tileX == TILES_PER_CHUNK - 1 ==>
            GetTile(m, chunkX + 1, chunkY, tileX, 0) == TileAt(m, col + TILES_PER_CHUNK, row - row % TILES_PER_CHUNK))
  {
    AxisDecomposition(px);
    AxisDecomposition(py);
    PreviousTileWraps(px / TILE_LENGTH);
    NextTileWraps(px / TILE_LENGTH);
    RightEdgeWrapCell(px / TILE_LENGTH, py / TILE_LENGTH);
  }

  /** Reference for the wall probe as written, in global tile columns and rows: the value read in
      the containing tile is a width, the values read in the neighbouring tiles are heights, and the
      extension at a chunk's last column lands six columns on, in the chunk's bottom row, while the
      surface is still measured from the next column. */
  function WallReference(m: TileMap, px: int, py: int): Hit
  {
    var col, row, block := px / TILE_LENGTH, py / TILE_LENGTH, py % TILE_LENGTH;
    var w := GetWidth(TileAt(m, col, row), block);
    if w == TILE_LENGTH then
      var behind := ColumnHeight(m, col - 1, row, block);
      if behind > 0 then Hit(TileAt(m, col - 1, row), col * TILE_LENGTH - behind)
      else Hit(TileAt(m, col, row), col * TILE_LENGTH)
    else if w == 0 then
      var nextCol := if col % TILES_PER_CHUNK == TILES_PER_CHUNK - 1 then col + TILES_PER_CHUNK else col + 1;
      var nextRow := if col % TILES_PER_CHUNK == TILES_PER_CHUNK - 1 then row - row % TILES_PER_CHUNK else row;
      Hit(TileAt(m, nextCol, nextRow), (col + 2) * TILE_LENGTH - ColumnHeight(m, nextCol, nextRow, block))
    else Hit(TileAt(m, col, row), (col + 1) * TILE_LENGTH - w)
  }

  /** The wall probe the floor probe mirrors: widths throughout, and the extension moves to the next
      column in the same row whatever chunk it lies in. */
  function WallSymmetric(m: TileMap, px: int, py: int): Hit
  {
    var col, row, block := px / TILE_LENGTH, py / TILE_LENGTH, py % TILE_LENGTH;
    var w := GetWidth(TileAt(m, col, row), block);
    if w == TILE_LENGTH then
      var behind := GetWidth(TileAt(m, col - 1, row), block);
      if behind > 0 then Hit(TileAt(m, col - 1, row), col * TILE_LENGTH - behind)
      else Hit(TileAt(m, col, row), col * TILE_LENGTH)
    else if w == 0 then
      Hit(TileAt(m, col + 1, row), (col + 2) * TILE_LENGTH - GetWidth(TileAt(m, col + 1, row), block))
    else Hit(TileAt(m, col, row), (col + 1) * TILE_LENGTH - w)
  }

  /** One column right of the last column of a chunk, as wallProcess computes it: the next chunk,
      still the last column, and row 0 of that chunk. */
  lemma RightEdgeWrapCell(col: int, row: int)
    ensures col % TILES_PER_CHUNK == TILES_PER_CHUNK - 1 ==>
      && (col + TILES_PER_CHUNK) / TILES_PER_CHUNK == col / TILES_PER_CHUNK + 1
      && (col + TILES_PER_CHUNK) % TILES_PER_CHUNK == TILES_PER_CHUNK - 1
    ensures (row - row % TILES_PER_CHUNK) / TILES_PER_CHUNK == row / TILES_PER_CHUNK
    ensures (row - row % TILES_PER_CHUNK) % TILES_PER_CHUNK == 0
  {
    if col % TILES_PER_CHUNK == TILES_PER_CHUNK - 1 {
      DivModUnique(col + TILES_PER_CHUNK, TILES_PER_CHUNK, col / TILES_PER_CHUNK + 1, TILES_PER_CHUNK - 1);
    }
    DivModUnique(row - row % TILES_PER_CHUNK, TILES_PER_CHUNK, row / TILES_PER_CHUNK, 0);
  }

  /** When the containing tile's row is neither empty nor full, no neighbour is probed and the wall
      probe as written agrees with the symmetric one. */
  lemma WallAgreesWithSymmetricWithoutProbes(m: TileMap, px: int, py: int)
    requires px >= 0 && py >= 0
    requires var w := GetWidth(TileAt(m, px / TILE_LENGTH, py / TILE_LENGTH), py % TILE_LENGTH);
             w != 0 && w != TILE_LENGTH
    ensures WallSurface(m, px, py) == WallSymmetric(m, px, py)
  {
  }

  /** wallProcess: the sentinel for a negative position, otherwise the as-written probe at the
      rounded position, with the distance measured from the unrounded x. */
  function WallProcess(m: TileMap, x: real, y: real): (r: Probe)
    ensures x < 0.0 || y < 0.0 ==> r == Probe(GetEmptyTile(), WALL_OUT_OF_BOUNDS)
    ensures x >= 0.0 && y >= 0.0 ==>
      var hit := WallReference(m, Round(x), Round(y));
      r == Probe(hit.tile, hit.surface as real - x)
  {
    if x < 0.0 || y < 0.0 then Probe(GetEmptyTile(), WALL_OUT_OF_BOUNDS)
    else
      var px, py := Round(x), Round(y);
      var hit := WallSurface(m, px, py);
      Probe(hit.tile, hit.surface as real - x)
  }

  // ---------------------------------------------------------------------------------------------
  // Worked examples

  /** A column holding one full tile with nothing above it: a sensor exactly on the top surface
      reads 0, one pixel above the surface reads -1 and one pixel inside the tile reads +1; the
      regression above the full tile finds nothing and is not taken. */
  lemma SingleFullTileProbe()
    ensures var m := OneFullTile();
      && FloorProcess(m, 8.0, 16.0) == Probe(FTile, 0.0)
      && FloorProcess(m, 8.0, 17.0) == Probe(FTile, -1.0)
      && FloorProcess(m, 8.0, 15.0) == Probe(FTile, 1.0)
  {
    var m := OneFullTile();
    assert TileAt(m, 0, 0) == FTile;
    assert TileAt(m, 0, 1) == GetEmptyTile();
    RoundOfInteger(8);
    RoundOfInteger(15);
    RoundOfInteger(16);
    RoundOfInteger(17);
    assert FloorRow(m, 8, 16) == 0;
    assert FloorRow(m, 8, 17) == 0;
    assert FloorRow(m, 8, 15) == 0;
  }

  /** A level of one chunk whose every column holds a single full tile at the bottom. */
  function OneFullTile(): TileMap
  {
    TileMap([[NewTexturedChunk(Texture("t"), seq(TILES_PER_CHUNK, _ => [FTile])).value]])
  }

  /** The regression of the wall probe reads the neighbour's height array: in the half-height tile
      the row is full, the tile to the left has height 8 but width 16, and the probe as written
      stops 8 pixels short of where the symmetric probe puts the wall. */
  lemma WallRegressionReadsHeights()
    ensures WallSurface(TileMap([[HChunk]]), 19, 42) == Hit(HTile, 8)
    ensures WallSymmetric(TileMap([[HChunk]]), 19, 42) == Hit(HTile, 0)
  {
    var m := TileMap([[HChunk]]);
    assert TileAt(m, 1, 2) == HTile && TileAt(m, 0, 2) == HTile;
    assert GetWidth(HTile, 10) == 16 && GetHeight(HTile, 10) == 8;
    assert WallReference(m, 19, 42) == Hit(HTile, 8);
  }

  /** At a chunk's last column the wall extension keeps tileX and resets tileY: a sensor in an empty
      chunk, beside a slope chunk whose first column is empty at that height, reports the full tile
      in the slope chunk's last column and bottom row instead of the empty tile next to it. */
  lemma WallRightEdgeWrapResetsRow()
    ensures WallSurface(TileMap([[EmptyC], [SChunk]]), 84, 50) == Hit(FTile, 96)
    ensures WallSymmetric(TileMap([[EmptyC], [SChunk]]), 84, 50) == Hit(GetEmptyTile(), 112)
  {
    var m := TileMap([[EmptyC], [SChunk]]);
    assert TileAt(m, 5, 3) == GetEmptyTile();
    assert TileAt(m, 11, 0) == FTile;
    assert TileAt(m, 6, 3) == GetEmptyTile();
  }

}

=== FILE: TileMaps.dfy ===
/** The level: a ragged two-dimensional array of chunks with total lookups that resolve every
    out-of-range, negative or empty-chunk address to a sentinel
    (core/src/main/java/com/sonicgdx/TileMap.java). */
module TileMaps {

  import opened Wrappers
  import opened Dimensions
  import opened Tiles
  import opened Chunks

  /** chunks[chunkX][chunkY]; each column may have its own height. */
  datatype TileMap = TileMap(chunks: seq<seq<Chunk>>)

  /** getEmptyTile: the shared empty tile the lookups return. */
  function GetEmptyTile(): (t: Tile)
    ensures t.empty
    ensures forall i :: GetHeight(t, i) == 0 && GetWidth(t, i) == 0
  {
    EmptyTile()
  }

  /** emptyTileArray: a full TILES_PER_CHUNK square of empty tiles. */
  function EmptyTileArray(): (g: seq<seq<Tile>>)
    ensures |g| == TILES_PER_CHUNK
    ensures forall i :: 0 <= i < |g| ==> |g[i]| == TILES_PER_CHUNK
    ensures forall i, j :: 0 <= i < |g| && 0 <= j < |g[i]| ==> g[i][j] == EmptyTile()
  {
    seq(TILES_PER_CHUNK, _ => seq(TILES_PER_CHUNK, _ => EmptyTile()))
  }

  /** emptyChunk: the texture-less chunk over emptyTileArray, so it is flagged empty. */
  function EmptyChunk(): (c: Chunk)
    ensures c.empty && c.texture == None
    ensures NewChunk(EmptyTileArray()) == Success(c)
  {
    NewChunk(EmptyTileArray()).value
  }

  predicate ChunkInRange(m: TileMap, chunkX: int, chunkY: int)
  {
    0 <= chunkX < |m.chunks| && 0 <= chunkY < |m.chunks[chunkX]|
  }

  /** getChunk: the stored chunk, or the empty chunk for any address outside the ragged array. */
  function GetChunk(m: TileMap, chunkX: int, chunkY: int): (c: Chunk)
    ensures ChunkInRange(m, chunkX, chunkY) ==> c == m.chunks[chunkX][chunkY]
    ensures !ChunkInRange(m, chunkX, chunkY) ==> c == EmptyChunk()
    ensures !c.empty ==> ChunkInRange(m, chunkX, chunkY)
  {
    if chunkX < 0 || chunkX >= |m.chunks| || chunkY < 0 || chunkY >= |m.chunks[chunkX]| then EmptyChunk()
    else m.chunks[chunkX][chunkY]
  }

  /** isChunkEmpty: the flag of the chunk getChunk resolves to; every out-of-range address is empty. */
  function IsChunkEmpty(m: TileMap, chunkX: int, chunkY: int): (b: bool)
    ensures b == GetChunk(m, chunkX, chunkY).empty
    ensures !ChunkInRange(m, chunkX, chunkY) ==> b
    ensures ChunkInRange(m, chunkX, chunkY) ==> b == m.chunks[chunkX][chunkY].empty
  {
    GetChunk(m, chunkX, chunkY).empty
  }

  /** A tile is stored at this address: the chunk exists, is not flagged empty, and its (possibly
      ragged) grid has the cell. */
  predicate Stored(m: TileMap, chunkX: int, chunkY: int, tileX: int, tileY: int)
  {
    && ChunkInRange(m, chunkX, chunkY)
    && !m.chunks[chunkX][chunkY].empty
    && 0 <= tileX < |m.chunks[chunkX][chunkY].tiles|
    && 0 <= tileY < |m.chunks[chunkX][chunkY].tiles[tileX]|
  }

  /** getTile: total over all integers. The array accesses below are exactly the Java ones, guarded
      only by the emptiness test, and the verifier shows they never leave the arrays. */
  function GetTile(m: TileMap, chunkX: int, chunkY: int, tileX: int, tileY: int): (t: Tile)
    ensures tileX < 0 || tileY < 0 || IsChunkEmpty(m, chunkX, chunkY) ==> t == GetEmptyTile()
    ensures Stored(m, chunkX, chunkY, tileX, tileY) ==> t == m.chunks[chunkX][chunkY].tiles[tileX][tileY]
    ensures !Stored(m, chunkX, chunkY, tileX, tileY) ==> t == GetEmptyTile()
  {
    if 0 <= tileX && 0 <= tileY && !IsChunkEmpty(m, chunkX, chunkY) then
      if tileX < |m.chunks[chunkX][chunkY].tiles| && tileY < |m.chunks[chunkX][chunkY].tiles[tileX]| then
        m.chunks[chunkX][chunkY].tiles[tileX][tileY]
      else GetEmptyTile()
    else GetEmptyTile()
  }

  /** A non-empty tile can only come from a stored cell: lookups never invent terrain. */
  lemma NonEmptyTileIsStored(m: TileMap, chunkX: int, chunkY: int, tileX: int, tileY: int)
    requires !GetTile(m, chunkX, chunkY, tileX, tileY).empty
    ensures Stored(m, chunkX, chunkY, tileX, tileY)
    ensures GetTile(m, chunkX, chunkY, tileX, tileY) == m.chunks[chunkX][chunkY].tiles[tileX][tileY]
  {
  }

  /** The tile at a global tile column and row: column = chunkX * TILES_PER_CHUNK + tileX, and
      likewise for rows, with Euclidean division so that negative columns and rows land in the
      (absent) negative chunks. */
  function TileAt(m: TileMap, col: int, row: int): Tile
  {
    GetTile(m, col / TILES_PER_CHUNK, row / TILES_PER_CHUNK, col % TILES_PER_CHUNK, row % TILES_PER_CHUNK)
  }

  // ---------------------------------------------------------------------------------------------
  // The testLevel fixture, textures kept only as their asset paths.

  const full: seq<int> := [16,16,16,16,16,16,16,16,16,16,16,16,16,16,16,16]
  const slope: seq<int> := [1,2,3,4,5,6,7,8,9,10,11,12,13,14,15,16]
  const halfh: seq<int> := [8,8,8,8,8,8,8,8,8,8,8,8,8,8,8,8]
  const halfw: seq<int> := [0,0,0,0,0,0,0,0,16,16,16,16,16,16,16,16]
  const rvSlope: seq<int> := [16,15,14,13,12,11,10,9,8,7,6,5,4,3,2,1]
  const testh: seq<int> := [0,0,1,2,2,3,4,5,5,6,6,7,8,9,9,9]
  const testw: seq<int> := [0,0,0,0,0,0,0,3,4,5,7,9,10,11,13,14]

  const FTile: Tile := NewTile(full, full, 0.0, 4, false, false).value
  const STile: Tile := NewTile(slope, slope, 45.0, 1, false, false).value
  const RvTile: Tile := NewTile(rvSlope, slope, -45.0, 1, true, false).value
  const HTile: Tile := NewTile(halfh, halfw, 0.0, 1, false, false).value
  const TestTile: Tile := NewTile(testh, testw, 33.75, 1, false, false).value
  const EmptyT: Tile := EmptyTile()

  const FChunk: Chunk := NewTexturedChunk(Texture("sprites/AIZ2/95.png"),
    seq(TILES_PER_CHUNK, _ => seq(TILES_PER_CHUNK, _ => FTile))).value
  const HChunk: Chunk := NewTexturedChunk(Texture("sprites/AIZ2/176.png"), [
    [FTile, FTile, HTile],
    [FTile, FTile, HTile],
    [FTile, FTile, HTile],
    [FTile, FTile, HTile],
    [FTile, FTile, HTile],
    [FTile, FTile, HTile]]).value
  const RvChunk: Chunk := NewTexturedChunk(Texture("sprites/AIZ2/130.png"), [
    [FTile, FTile, FTile, FTile, FTile, RvTile],
    [FTile, FTile, FTile, FTile, RvTile, EmptyT],
    [FTile, FTile, FTile, RvTile, EmptyT, EmptyT],
    [FTile, FTile, RvTile, EmptyT, EmptyT, EmptyT],
    [FTile, RvTile, EmptyT, EmptyT, EmptyT, EmptyT],
    [RvTile, EmptyT, EmptyT, EmptyT, EmptyT, EmptyT]]).value
  const SChunk: Chunk := NewTexturedChunk(Texture("sprites/AIZ2/65.png"), [
    [STile, EmptyT, EmptyT, EmptyT, EmptyT, EmptyT],
    [FTile, STile, EmptyT, EmptyT, EmptyT, EmptyT],
    [FTile, FTile, STile, EmptyT, EmptyT, EmptyT],
    [FTile, FTile, FTile, STile, EmptyT, EmptyT],
    [FTile, FTile, FTile, FTile, STile, EmptyT],
    [FTile, FTile, FTile, FTile, FTile, STile]]).value
  const EmptyC: Chunk := EmptyChunk()

  /** testLevel: twenty-six columns of chunks of varying height. */
  const TestLevel: TileMap := TileMap([
    [SChunk],
    [FChunk],
    [FChunk],
    [FChunk],
    [EmptyC],
    [EmptyC, FChunk],
    [EmptyC],
    [FChunk],
    [FChunk],
    [FChunk],
    [FChunk],
    [FChunk, FChunk],
    [FChunk, FChunk],
    [EmptyC, RvChunk, EmptyC, EmptyC, EmptyC, FChunk],
    [FChunk, EmptyC, EmptyC, EmptyC, EmptyC, FChunk],
    [EmptyC, SChunk, EmptyC, HChunk, FChunk],
    [EmptyC, EmptyC, EmptyC, HChunk],
    [EmptyC, EmptyC, RvChunk],
    [EmptyC, RvChunk],
    [EmptyC, SChunk],
    [EmptyC, EmptyC, SChunk],
    [EmptyC],
    [EmptyC],
    [EmptyC],
    [EmptyC],
    [HChunk]])

  /** The fixture's distinct tile instances are distinct values, so comparing tiles by value (as
      this model does) agrees with the Java comparison by reference on this level. */
  lemma FixtureTilesDistinct()
    ensures FTile != STile && FTile != RvTile && FTile != HTile && FTile != TestTile && FTile != EmptyT
    ensures STile != RvTile && STile != HTile && STile != TestTile && STile != EmptyT
    ensures RvTile != HTile && RvTile != TestTile && RvTile != EmptyT
    ensures HTile != TestTile && HTile != EmptyT && TestTile != EmptyT
  {
    assert FTile.heights[0] != STile.heights[0];
    assert FTile.heights[0] != HTile.heights[0];
    assert STile.heights[0] != RvTile.heights[0];
    assert STile.heights[0] != HTile.heights[0];
    assert RvTile.heights[0] != HTile.heights[0];
    assert FTile.heights[0] != TestTile.heights[0];
    assert STile.heights[0] != TestTile.heights[0];
    assert RvTile.heights[0] != TestTile.heights[0];
    assert HTile.heights[0] != TestTile.heights[0];
  }

  /** Lookups on the fixture: the level origin is a slope tile; the gap above a one-chunk column,
      an empty chunk, the rows missing from the ragged half-height chunk and a negative chunk
      address all read as the empty tile. */
  lemma TestLevelLookups()
    ensures GetTile(TestLevel, 0, 0, 0, 0) == STile
    ensures GetTile(TestLevel, 13, 1, 5, 0) == RvTile
    ensures GetTile(TestLevel, 0, 1, 0, 0) == GetEmptyTile()
    ensures GetTile(TestLevel, 4, 0, 0, 0) == GetEmptyTile()
    ensures GetTile(TestLevel, 25, 0, 0, 2) == HTile
    ensures GetTile(TestLevel, 25, 0, 0, 3) == GetEmptyTile()
    ensures GetTile(TestLevel, -1, 0, 0, 0) == GetEmptyTile()
  {
  }

}

=== FILE: Tiles.dfy ===
/** The collision profile of one tile: sixteen column heights, sixteen row widths,
    an angle, a solidity code and two flip flags (core/src/main/java/com/sonicgdx/Tile.java). */
module Tiles {

  import opened Wrappers
  import opened Dimensions

  /** The fields of a tile as the Java class holds them. */
  datatype TileData = TileData(
    heights: seq<int>,
    widths: seq<int>,
    angle: real,
    /** 0 = solid from top, 1 = bottom, 2 = left, 3 = right, 4 = all sides. */
    solidity: int,
    flippedHorizontally: bool,
    flippedVertically: bool,
    empty: bool)

  /** Sixteen zeros: the arrays of the empty tile. */
  function Zeros(): (z: seq<int>)
    ensures |z| == TILE_LENGTH
    ensures forall i :: 0 <= i < |z| ==> z[i] == 0
  {
    seq(TILE_LENGTH, _ => 0)
  }

  /** A tile as the constructors can build it: both arrays hold exactly TILE_LENGTH entries. */
  type Tile = t: TileData | |t.heights| == TILE_LENGTH && |t.widths| == TILE_LENGTH
    witness TileData(Zeros(), Zeros(), 0.0, 0, false, false, true)

  /** The six-argument constructor: the height array is validated first, then the width array. */
  function NewTile(heights: seq<int>, widths: seq<int>, angle: real, solidity: int,
                   flippedHorizontally: bool, flippedVertically: bool): (r: Result<Tile, DimensionError>)
    ensures r.Success? <==> |heights| == TILE_LENGTH && |widths| == TILE_LENGTH
    ensures |heights| != TILE_LENGTH ==> r == Failure(InvalidDimension(|heights|, TILE_LENGTH))
    ensures |heights| == TILE_LENGTH && |widths| != TILE_LENGTH ==> r == Failure(InvalidDimension(|widths|, TILE_LENGTH))
    ensures r.Success? ==> !r.value.empty && r.value.angle == angle && r.value.solidity == solidity
    ensures r.Success? ==> r.value.flippedHorizontally == flippedHorizontally && r.value.flippedVertically == flippedVertically
  {
    if |heights| != TILE_LENGTH then Failure(InvalidDimension(|heights|, TILE_LENGTH))
    else if |widths| != TILE_LENGTH then Failure(InvalidDimension(|widths|, TILE_LENGTH))
    else Success(TileData(heights, widths, angle, solidity, flippedHorizontally, flippedVertically, false))
  }

  /** The no-argument constructor: the empty sentinel tile. */
  function EmptyTile(): (t: Tile)
    ensures t.empty && t.angle == 0.0 && t.solidity == 0
    ensures !t.flippedHorizontally && !t.flippedVertically
    ensures forall i :: 0 <= i < TILE_LENGTH ==> t.heights[i] == 0 && t.widths[i] == 0
  {
    TileData(Zeros(), Zeros(), 0.0, 0, false, false, true)
  }

  /** getHeight: total over every int; an empty tile or a column outside 0..15 reads as 0. */
  function GetHeight(t: Tile, block: int): (h: int)
    ensures t.empty || block < 0 || TILE_LENGTH <= block ==> h == 0
    ensures !t.empty && 0 <= block < TILE_LENGTH ==> h == t.heights[block]
  {
    if t.empty || block < 0 || TILE_LENGTH - 1 < block then 0 else t.heights[block]
  }

  /** getWidth: the same total read over the width array. */
  function GetWidth(t: Tile, block: int): (w: int)
    ensures t.empty || block < 0 || TILE_LENGTH <= block ==> w == 0
    ensures !t.empty && 0 <= block < TILE_LENGTH ==> w == t.widths[block]
  {
    if t.empty || block < 0 || TILE_LENGTH - 1 < block then 0 else t.widths[block]
  }

  /** Reading back a constructed tile returns exactly the arrays it was built from. */
  lemma NewTileReadsBack(heights: seq<int>, widths: seq<int>, angle: real, solidity: int,
                         flippedHorizontally: bool, flippedVertically: bool, block: int)
    requires |heights| == TILE_LENGTH && |widths| == TILE_LENGTH
    requires 0 <= block < TILE_LENGTH
    ensures var t := NewTile(heights, widths, angle, solidity, flippedHorizontally, flippedVertically).value;
      GetHeight(t, block) == heights[block] && GetWidth(t, block) == widths[block]
  {
  }

  /** Every read of the empty tile is 0, whatever the index. */
  lemma EmptyTileReadsZero(block: int)
    ensures GetHeight(EmptyTile(), block) == 0 && GetWidth(EmptyTile(), block) == 0
  {
  }

}

=== FILE: Wrappers.dfy ===
/** Optional values and results, used where the Java code has a nullable reference
    (the winning floor sensor, a chunk's texture) or throws an exception (constructors). */
module Wrappers {

  datatype Option<+T> = None | Some(value: T)

  datatype Result<+R, +E> = Success(value: R) | Failure(error: E)

}
